=== FILE: README.md ===
# Public user registration and login, modelled in Dafny

This project models the public-user part of the service: a client registers an
account or logs in and receives a signed token.

The model covers four layers:

- **Records** (`user_model.dfy`): the public user, the new-user request and the partial update.
- **Cache-aside store** (`user_cache.dfy`): a durable store plus a cache that keys every user twice, by ID string and by email address. Writes reach the durable store first and touch the cache only on success. Reads try the cache and fill it on a miss.
- **Business service** (`public_user_bus.dfy`): it hashes the password with bcrypt, builds the stored record, and authenticates by email lookup and hash comparison.
- **Database row conversions** (`public_user_db.dfy`).
- **App layer** (`public_app_model.dfy`, `public_app.dfy`):
  - the outward user view and its JSON projection, which hides the hash;
  - request validation from the `validate` tags;
  - the request-to-record conversion;
  - the `register` and `login` handlers, and the claims they sign.

Every operation is a pure function that returns a `Step`: the store after the call, the result, and a trace. The trace is the sequence of calls made into the durable store, the cache, bcrypt and the token signer. Ordering rules are stated over the trace:

- "the store before the cache" is `Trace.StoreFirst`;
- "the cache is exactly what the trace's cache events build" is `Trace.Replay`;
- "no store call" is `!Trace.TouchesStore`.

External pieces are parameters:

- the durable store (`UserCache.Storer` over an abstract state);
- bcrypt (`PublicUserBus.Bcrypt`);
- the parsers for roles, email addresses and names (`Values.Parsers`);
- the email-syntax check of the validator;
- the token signer (`PublicApp.App`);
- RFC 3339 time formatting.

What the proofs rely on about these pieces is stated as a precondition where it is used. For example, `PublicUserBus.Sound` says a bcrypt hash matches the password it was made from.

Errors follow Go's wrapping: `Results.Wrapped` keeps the chain and `Results.Is` models `errors.Is`. Each sentinel error is its own constructor, so `pbusrbus.ErrUniqueEmail` and `userbus.ErrUniqueEmail` are distinct values.

Two places where the model departs from the code as written:

- **Types.** business/domain/pbusrbus/pbusrbus.go declares its storer over `NewPublicUser` and returns an undefined `User` from its lookups. The model uses the one stored record, `PublicUser`, throughout, as the cache-aside store does. The handlers are typed against `pbusrbus.Business` (app/domain/publicapp/route.go:14), but api/services/auth/build/all/all.go:36 and :51 hand them a `publicuesrbus.Business` built over the cache-aside store. The model treats the two as one business whose storer is that cache-aside store.
- **Corrected definitions.** Where verification exposed a defect (see "## Findings"), the model keeps the definition as written next to a corrected one. `PublicApp.Register` is the handler as written. `PublicApp.RegisterCorrected` is the same handler with the corrected role conversion and the corrected duplicate-email test. `PublicApp.LoginUniform` is login over `PublicUserBus.AuthenticateUniform`, which does the same password comparison on both failure paths.

## Model

| member | source | states |
|---|---|---|
| Values.UuidString | business/domain/publicuesrbus/stores/usercache/usercache.go:96 | the ID cache key is 36 characters in 8-4-4-4-12 form with dashes at 8, 13, 18 and 23, and never contains '@', so it cannot collide with an email key |
| Values.UuidStringInjective | business/domain/publicuesrbus/stores/usercache/usercache.go:96 | two users have the same ID key only if they have the same UUID |
| Values.RoleStrings | business/domain/publicuesrbus/stores/publicuserdb/model.go:33 | roles become their names, one for one and in order |
| Results.IsSurvivesWrapping | business/domain/pbusrbus/pbusrbus.go:104 | wrapping an error with context, however often, never hides a sentinel from `errors.Is` |
| Results.WrappingAddsNoSentinel | app/domain/publicapp/publicapp.go:47 | wrapping never makes `errors.Is` find a sentinel the error did not carry |
| UserCache.ReadCache | business/domain/publicuesrbus/stores/usercache/usercache.go:85-92 | a read finds a user exactly when the key is cached, and returns the cached user |
| UserCache.WriteCache | business/domain/publicuesrbus/stores/usercache/usercache.go:95-98 | after a write the user is readable under its ID key and its email key, and every other key is unchanged |
| UserCache.DeleteCache | business/domain/publicuesrbus/stores/usercache/usercache.go:101-104 | after an eviction neither of the user's keys is cached, and every other key is unchanged |
| UserCache.Create | business/domain/publicuesrbus/stores/usercache/usercache.go:35-43 | calls the durable store first; a failure is returned with the cache untouched; on success the user is cached under both keys and nothing else changes; every cache write follows a successful store call |
| UserCache.Update | business/domain/publicuesrbus/stores/usercache/usercache.go:46-54 | the same order and guarantees as create, for an update; nothing is evicted |
| UserCache.Delete | business/domain/publicuesrbus/stores/usercache/usercache.go:57-65 | calls the durable store first; both keys are evicted only after it succeeds; a failure leaves the cache untouched |
| UserCache.QueryByEmail | business/domain/publicuesrbus/stores/usercache/usercache.go:68-82 | only the store and the cache are called; a cache hit on the bare address returns the cached user without calling the store; a miss returns the store's answer unchanged, and a successful answer is cached under the answer's own two keys |
| UserCache.WriteCacheKeepsCoherent | business/domain/publicuesrbus/stores/usercache/usercache.go:95-98 | writing a user whose keys are free, or already hold that user, keeps the two-key rule: every cached user is readable under both of its keys |
| UserCache.DeleteCacheKeepsCoherent | business/domain/publicuesrbus/stores/usercache/usercache.go:101-104 | evicting a user as cached keeps the two-key rule |
| UserCache.CreateKeepsCoherent | business/domain/publicuesrbus/stores/usercache/usercache.go:35-43 | from a coherent cache, create of a user whose two keys are free or already hold that user keeps the two-key rule, whether the store succeeds or fails |
| UserCache.DeleteKeepsCoherent | business/domain/publicuesrbus/stores/usercache/usercache.go:57-65 | from a coherent cache, delete of a user whose two keys are free or hold that user as cached keeps the two-key rule, whether the store succeeds or fails |
| UserCache.QueryKeepsCoherent | business/domain/publicuesrbus/stores/usercache/usercache.go:68-82 | from a coherent cache, a lookup keeps the two-key rule when the store's answer, if any, is a user whose two keys are free or already hold it; in a coherent cache, a hit on an address containing '@' returns a user with that email |
| UserCache.CreateThenQuery | business/domain/publicuesrbus/stores/usercache/usercache.go:35-82 | right after a successful create, a lookup of the email returns the new user from the cache without calling the store |
| UserCache.UpdateThenQuery | business/domain/publicuesrbus/stores/usercache/usercache.go:46-82 | right after a successful update, a lookup of the new email returns the new version without calling the store |
| UserCache.DeleteThenQuery | business/domain/publicuesrbus/stores/usercache/usercache.go:57-82 | right after a successful delete, a lookup of the email goes to the store and returns its answer |
| UserCache.QueryTwice | business/domain/publicuesrbus/stores/usercache/usercache.go:68-82 | a second lookup of the same email returns the first answer without a store call, when the first answer carried that email |
| UserCache.QueryFillUsesAnswerKeys | business/domain/publicuesrbus/stores/usercache/usercache.go:74-81 | the cache is filled under the answer's email, not the key asked for: if they differ, every later lookup of that key calls the store again |
| UserCache.LookupIgnoresDisplayName | business/domain/publicuesrbus/stores/usercache/usercache.go:69 | lookups are keyed by the bare address: two addresses that differ only in display name read the same entry |
| UserCache.StaleReadAfterUpdate | business/domain/publicuesrbus/stores/usercache/usercache.go:46-54 | as written, after an update that changes the email, the old email key still holds the previous version and a lookup returns it, although the durable store holds only the new version; the two-key rule is broken. In the service this lasts until the old key's entry expires, one minute as wired |
| UserCache.UpdateEvicting | business/domain/publicuesrbus/stores/usercache/usercache.go:46-54 | the corrected update evicts the previous version's email key before writing; from a coherent cache in which no other user holds the new ID or email key, it keeps the two-key rule and leaves no stale version of the user cached |
| UserCache.UpdateKeepsCoherentWhenEmailKept | business/domain/publicuesrbus/stores/usercache/usercache.go:46-54 | when the email does not change, the update as written and the corrected update leave the same cache, and both keep the two-key rule |
| PublicUserBus.Create | business/domain/pbusrbus/pbusrbus.go:52-80 | hashes the password first; a hash failure is wrapped as "generatefrompassword" and the store is never called; otherwise the stored record is built with the given ID, the hash, enabled true, and both dates equal to now; the store afterwards is what the cache-aside create of that record leaves, so the durable state is the store's post-state; the result is Ok exactly when the durable create passed, and the record returned is the one stored; a store failure is wrapped as "create"; the plaintext is never stored |
| PublicUserBus.CreateSeesPasswordOnlyThroughHash | business/domain/pbusrbus/pbusrbus.go:56-79 | two requests that differ only in password, and whose passwords hash alike, create the same record with the same calls |
| PublicUserBus.QueryByEmail | business/domain/pbusrbus/pbusrbus.go:83-93 | the cache-aside lookup's answer is returned unchanged, and its error is wrapped as "query" |
| PublicUserBus.Authenticate | business/domain/pbusrbus/pbusrbus.go:98-112 | a failed lookup is returned with one more "query" wrap and nothing else, with no password comparison; otherwise it succeeds exactly when the hash matches the password and then returns the user found; a mismatch carries `ErrAuthenticationFailure`; after a found user the calls are the lookup's followed by one comparison |
| PublicUserBus.AuthenticateKeepsLookupSentinels | business/domain/pbusrbus/pbusrbus.go:102-105 | after a failed lookup, `errors.Is` finds a sentinel in authenticate's error exactly when it is in the lookup's error; in particular `ErrAuthenticationFailure` appears only if the store reported it |
| PublicUserBus.AuthenticateUniform | business/domain/pbusrbus/pbusrbus.go:98-112 | corrected: the same result and store as authenticate, but a failed lookup still compares the password against a dummy hash, so every call compares exactly once, as its last step |
| UserCache.QueryCallsStoreAndCacheOnly | business/domain/publicuesrbus/stores/usercache/usercache.go:68-82 | a lookup calls only the durable store and the cache: it never hashes, compares or signs |
| PublicUserBus.CreateThenAuthenticate | business/domain/pbusrbus/pbusrbus.go:52-112 | with a sound bcrypt, a created user authenticates with its own password from the cache, without calling the store |
| PublicUserBus.StaleLoginAfterUpdate | business/domain/pbusrbus/pbusrbus.go:98-112 | after an update that changes a user's email and password, logging in with the old email and the old password succeeds from the cache and returns the previous version, with no store call; in the service this lasts until the old key's entry expires, one minute as wired |
| PublicUserBus.CreateThenWrongPassword | business/domain/pbusrbus/pbusrbus.go:107-109 | after create, a password the stored hash does not match fails with `ErrAuthenticationFailure` |
| PublicUserDb.ToDbUser | business/domain/publicuesrbus/stores/publicuserdb/model.go:28-43 | the row stores the bare address, the role names, the name and department text, the department's valid flag, and the other fields as they are |
| PublicUserDb.ToBusUser | business/domain/publicuesrbus/stores/publicuserdb/model.go:45-78 | parses roles, then the name, then the department, failing with "parse", "parse name" or "parse department" at the first failure; succeeds exactly when all three parse; the email has no display name |
| PublicUserDb.RoundTripKeepsStoredFields | business/domain/publicuesrbus/stores/publicuserdb/model.go:28-78 | writing a row and reading it back keeps the ID, address, hash, enabled flag and dates, whatever the parsers do |
| PublicUserDb.RoundTrip | business/domain/publicuesrbus/stores/publicuserdb/model.go:28-78 | when the parsers invert the string forms, reading back a written row gives the same user with the email's display name dropped |
| PublicUserDb.RoundTripDropsDisplayName | business/domain/publicuesrbus/stores/publicuserdb/model.go:46-48 | the email survives the round trip exactly when it had no display name |
| PublicUserDb.ReadIgnoresDepartmentValid | business/domain/publicuesrbus/stores/publicuserdb/model.go:60 | reading a row ignores the department's valid flag |
| PublicUserDb.RowRoundTrip | business/domain/publicuesrbus/stores/publicuserdb/model.go:28-78 | a row whose values the parsers accept and render back unchanged is written again exactly as it was read |
| PublicAppModel.ToAppUser | app/domain/publicapp/model.go:34-46 | the outward view carries the ID string, name, bare address, role names, department text, enabled flag and formatted dates of the user |
| PublicAppModel.AppUserEncoding | app/domain/publicapp/model.go:30-46 | the encoded view carries the user's ID key, bare email address and role names, and does not depend on the password hash |
| PublicAppModel.MarshalKeepsTaggedFields | app/domain/publicapp/model.go:16-32 | JSON marshalling emits every field not tagged "-" under its tag with its value, and nothing else |
| PublicAppModel.Encode | app/domain/publicapp/model.go:30-32 | every field of the user except the hash appears under its `json` tag with its value, and nothing else appears |
| PublicAppModel.EncodeFields | app/domain/publicapp/model.go:16-32 | the encoded user has exactly the keys id, name, email, roles, department, enabled, dateCreated and dateUpdated, in that order |
| PublicAppModel.EncodeOmitsHash | app/domain/publicapp/model.go:21 | the password hash never appears in the encoded user: no value is raw bytes, and changing the hash changes nothing |
| PublicAppModel.ValidateRegister | app/domain/publicapp/model.go:52-72 | a register request passes exactly when every tagged field keeps all the rules of its tag; otherwise the error lists the JSON names of exactly the fields that break one, and the list is not empty |
| PublicAppModel.Failing | app/domain/publicapp/model.go:66-72 | the reported fields are exactly the fields that break a rule of their tag; none are reported exactly when every field passes |
| PublicAppModel.RegisterValidationMeans | app/domain/publicapp/model.go:51-72 | a register request is valid exactly when the name and email are present, the email has email syntax, the password has at least 8 characters and the confirmation equals it; a short password is always reported on "password" |
| PublicAppModel.ToBusPublicNewUser | app/domain/publicapp/model.go:74-104 | parses roles, email, name and department in that order, returning the first failure wrapped as "parse"; succeeds exactly when all four parse; copies the password verbatim; keeps the roles as requested |
| PublicAppModel.SelfRegisteredAdmin | app/domain/publicapp/model.go:57-98 | as written, a self-registration asking for ADMIN creates an ADMIN user |
| PublicAppModel.ToBusPublicNewUserAsUser | app/domain/publicapp/model.go:57-104 | the corrected conversion gives every new user exactly the USER role; otherwise it agrees with the conversion as written |
| PublicAppModel.AsUserIgnoresRequestedRoles | app/domain/publicapp/model.go:57 | with the correction, the roles a client asks for make no difference |
| PublicApp.ClaimsFor | app/domain/publicapp/publicapp.go:53-61 | the token's subject is the user's UUID string, its issuer the auth issuer, its roles the user's role names; it is issued now and expires 8760 hours later |
| PublicApp.ClaimsIdentifyUser | app/domain/publicapp/publicapp.go:55 | two users get the same subject exactly when they have the same ID |
| PublicApp.DecodeRegister | app/domain/publicapp/publicapp.go:35-38 | a body that fails to decode or to validate is rejected; a rejected decoded body names the failing fields; a valid body passes unchanged |
| PublicApp.CreateErrorResponseAsWritten | app/domain/publicapp/publicapp.go:46-51 | as written, a create failure carrying userbus's unique-email sentinel becomes the "email already exists" field error on "email"; any other failure, including one carrying only the business layer's sentinel, is an internal error carrying it |
| PublicApp.CreateErrorResponse | app/domain/publicapp/publicapp.go:46-51 | corrected: a create failure carrying either unique-email sentinel becomes the "email already exists" field error on "email"; any other failure is an internal error carrying it |
| PublicApp.UniqueEmailMissedAsWritten | app/domain/publicapp/publicapp.go:47 | a store that reports a taken email with pbusrbus's sentinel gets an internal error as written, and the field error when corrected |
| PublicApp.DuplicateEmailSurvivesWrapping | app/domain/publicapp/publicapp.go:46-48 | userbus's unique-email sentinel gives the "email already exists" field error however many wraps surround it |
| PublicApp.DuplicateEmailTestsAgree | app/domain/publicapp/publicapp.go:47 | the corrected test accepts everything the written one does, and differs only on errors carrying pbusrbus's sentinel |
| PublicApp.Issue | app/domain/publicapp/publicapp.go:53-70 | signs the user's claims with the key id; a signing failure is an internal error; success returns only the token |
| PublicApp.Register | app/domain/publicapp/publicapp.go:34-71 | a bad body or a failed conversion, including roles the role parser rejects, is an invalid-argument error with no calls at all; a create failure is the "email already exists" field error exactly when it carries userbus's sentinel, and an internal error otherwise; otherwise the token is signed for the new user, who has the roles the request asked for, and a signing failure is an internal error carrying the signer's error; a token is returned only for a valid request whose roles parse; every cache write follows a successful store call |
| PublicApp.RegisterCorrected | app/domain/publicapp/publicapp.go:34-71 | the corrected handler: the same steps, but the new user always has exactly the USER role and the requested roles are not parsed, and either unique-email sentinel gives the field error; a signing failure is an internal error |
| PublicApp.Login | app/domain/publicapp/publicapp.go:74-107 | a bad body is an invalid argument; an unparseable email is the "invalid email format" field error with no calls; every authentication failure gets one identical unauthenticated response; the unauthenticated response is given exactly when authentication failed; on success the hash matches and the token is signed for the user found, and a signing failure is an internal error carrying the signer's error |
| PublicApp.LoginHidesWhichCheckFailed | app/domain/publicapp/publicapp.go:86-89 | an unknown email and a known email with the wrong password get the same response |
| PublicApp.LoginWorkRevealsEmail | business/domain/pbusrbus/pbusrbus.go:102-109 | as written, a failed login for an unknown email makes no password comparison, while one for a known email with a wrong password ends with a failed comparison: the work, and so the time, differs |
| PublicApp.LoginUniform | app/domain/publicapp/publicapp.go:74-107 | corrected: every response and store are those of login; an invalid-credentials answer has compared a password exactly once, as the last step |
| PublicApp.LoginUniformHidesEmail | app/domain/publicapp/publicapp.go:86-89 | corrected: an unknown email and a known email with a wrong password get the same response after the same work, one comparison, last |
| PublicApp.LoginAfterCreate | app/domain/publicapp/publicapp.go:74-107 | with a sound bcrypt, logging in right after a create with the same email and password makes no store call and signs the claims of the user just created |
| PublicApp.RegisterThenLogin | app/domain/publicapp/publicapp.go:34-107 | with a sound bcrypt, logging in right after registering is served from the cache, and signs a token for the new user's ID with the roles the registration asked for, expiring 8760 hours after login |
| PublicApp.RegisterCorrectedThenLogin | app/domain/publicapp/publicapp.go:34-107 | the same round trip through the corrected handler: the token carries exactly the USER role |
| PublicApp.RegisterGrantsRequestedAdmin | app/domain/publicapp/publicapp.go:40-60 | as written, a registration asking for ADMIN that the role parser accepts is issued a token with the ADMIN role; the corrected handler issues the USER role |
| PublicApp.SigningFailureKeepsUser | app/domain/publicapp/publicapp.go:45-66 | when signing fails after create succeeded, register reports an internal error carrying the signer's error, yet the durable create of the new record passed, the store holds its post-state, and the record is cached under both keys |

## Left out

- PublicUserDb.ToDbUser: the department's text is taken as `name.Null`'s value; the `name` package is not part of this model, and if its `String()` renders an invalid name otherwise, the stored text differs.
- PublicAppModel.ToAppUser: the department is rendered as `name.Null`'s value, on the same identification; an absent department is then the empty string.
- PublicAppModel.Encode: returns the JSON object as a list of entries; the byte rendering by json.Marshal, the "application/json" content type and the marshalling error (none can occur for these field types) are not modelled.
- Cache library: capacity (10000), sharding, TTL expiry and eviction percentage are not modelled. The cache is a map that only this code changes, so it never loses an entry by itself. The stale-read and stale-login lemmas therefore show no time bound; in the service, entries expire after the TTL the store is built with (one minute at api/services/auth/build/all/all.go:36).
- Clocks and randomness: `time.Now` and `uuid.New` are inputs (`now`, `id`). bcrypt's salt is an input too; its cost and internals are not modelled.
- Claims time: the handlers read the clock twice, once for expiry and once for issue time. The model uses one reading, so `expiresAt - issuedAt` is exactly 8760 hours.
- Time zones: times are whole seconds. The UTC and local-zone conversions in the row conversion leave the instant unchanged and are not modelled.
- RFC 3339 formatting is a parameter of `PublicAppModel.ToAppUser`.
- Parsers: `role.ParseMany`, `name.Parse`, `name.ParseNull` and `mail.ParseAddress` are parameters. Facts about them appear as preconditions only where used.
- Request decoding: web.Decode and JSON unmarshalling are not part of this model. The handlers receive the decoded body or its error. The register body is then validated, since `RegisterRequest` has a `Validate` method. The login body is not validated, since `LoginRequest` has none.
- Validator: the validator library's email syntax is a parameter. So is the exact text of its messages; only the failing field names are kept.
- Error text: error messages are kept only as wrap contexts. The email interpolated into "query: email[...]" is not modelled, and neither is the distinct Go identity of two equal-text `errors.New` values.
- Transactions: `NewWithTx` is not modelled.
- Not part of this model:
  - the route table (route.go);
  - service wiring (all.go);
  - logging and tracing spans;
  - the `delegate` field.
- Concurrency: the cache and store are used by one request at a time in the model.
- PublicUserModel.UpdatePublicUser: only the record shape is modelled, because no operation in this code consumes it.
- PublicAppModel.ToAppUser: the handler's unused call `_ = toAppUser(usr)` in register is not modelled, because its result is discarded.

## Findings

| source | as written | input that shows it | evidently intended | confidence | as-written member | corrected member |
|---|---|---|---|---|---|---|
| app/domain/publicapp/model.go:57 | the requested roles are parsed and kept on the new user (lines 75 and 98), although the field is documented as overridden to USER only | a register request with roles ["ADMIN"] that the role parser accepts is issued an ADMIN token | every self-registered user gets exactly the USER role | high; not executed | PublicApp.RegisterGrantsRequestedAdmin | PublicApp.RegisterCorrected |
| business/domain/publicuesrbus/stores/usercache/usercache.go:46-54 | update writes the new record's two keys and evicts nothing | create a user with ada@old.example, then update the same ID to ada@new.example; until the old key's cache entry expires (one minute, as the store is wired at api/services/auth/build/all/all.go:36), a lookup of ada@old.example returns the previous version from the cache, and logging in with the old email and old password succeeds | the previous version's email key is evicted on update | medium; not executed | UserCache.StaleReadAfterUpdate | UserCache.UpdateEvicting |
| app/domain/publicapp/publicapp.go:47 | only `userbus.ErrUniqueEmail` is recognised as a taken email, while the business layer declares its own `ErrUniqueEmail` | a store create failing with pbusrbus's `ErrUniqueEmail`: register answers with an internal error | a taken email is answered with the "email already exists" field error whichever sentinel reports it | low, since it depends on which sentinel the database store returns, and that store is not part of this model; not executed | PublicApp.UniqueEmailMissedAsWritten | PublicApp.CreateErrorResponse |
| business/domain/pbusrbus/pbusrbus.go:102-109 | an unknown email returns before bcrypt runs; a known email with a wrong password runs the slow comparison | a login for an address with no account, and one for a registered address with a wrong password: both get "invalid email or password", but only the second runs CompareHashAndPassword | both failures do the same work, so their timing does not reveal whether an account exists | medium; not executed | PublicApp.LoginWorkRevealsEmail | PublicApp.LoginUniform |

=== FILE: public_app.dfy ===
/**
 * The public HTTP handlers (app/domain/publicapp/publicapp.go): `register` and
 * `login`, as decisions from a decoded request to a response.
 *
 * The request body arrives already decoded (`Result<...>`: the JSON decoding
 * of web.Decode may fail); the token signer, issuer and key id are the `App`;
 * the clock is one reading `now`. Each handler runs on the cache-aside store
 * and returns the store after the call, the response and the trace.
 */
module PublicApp {
  import opened Results
  import opened Values
  import opened PublicUserModel
  import opened Trace
  import opened UserCache
  import PublicUserBus
  import opened PublicAppModel

  /** The `errs` codes the handlers use. */
  datatype ErrCode = InvalidArgument | Unauthenticated | Internal

  /** What a handler returns: an `errs.Error`, field errors, or a token. */
  datatype Response =
    | ErrorResponse(code: ErrCode, err: Error)
    | FieldError(field: string, err: Error)
    | Token(login: LoginResponse)

  /** 8760 hours: the lifetime of every token the handlers issue, in seconds. */
  const TokenLifetime: int := 8760 * 3600

  /** The auth service: its issuer, the key id, and `GenerateToken`. */
  datatype App = App(issuer: string, kid: string, generate: (string, Claims) -> Result<string>)

  /** The services the handlers reach through the business layer. */
  datatype Env<!S> = Env(
    storer: Storer<S>,
    bcrypt: PublicUserBus.Bcrypt,
    parsers: Parsers,
    isEmail: string -> bool)

  /** The claims of a token for `u`, issued at `now`. */
  function ClaimsFor(u: PublicUser, issuer: string, now: Time): (c: Claims)
    ensures c.subject == UuidString(u.id) && |c.subject| == 36 && '@' !in c.subject
    ensures c.issuer == issuer && c.roles == RoleStrings(u.roles)
    ensures c.issuedAt == now && c.expiresAt - c.issuedAt == TokenLifetime
  {
    Claims(UuidString(u.id), issuer, now + TokenLifetime, now, RoleStrings(u.roles))
  }

  /** A token's subject names exactly one user: two users share it only if they share an id. */
  lemma ClaimsIdentifyUser(u1: PublicUser, u2: PublicUser, issuer: string, now1: Time, now2: Time)
    ensures ClaimsFor(u1, issuer, now1).subject == ClaimsFor(u2, issuer, now2).subject <==> u1.id == u2.id
  {
    if UuidString(u1.id) == UuidString(u2.id) {
      UuidStringInjective(u1.id, u2.id);
    }
  }

  /** The register body as web.Decode hands it over: decoded, then `Validate`d. */
  function DecodeRegister(body: Result<RegisterRequest>, isEmail: string -> bool): (r: Result<RegisterRequest>)
    ensures body.Err? ==> r == body
    ensures r.Ok? <==> body.Ok? && ValidateRegister(body.value, isEmail).Pass?
    ensures r.Ok? ==> r == body
    ensures body.Ok? && r.Err? ==> Is(r.error, InvalidFields(ValidateRegister(body.value, isEmail).error.inner.fields))
  {
    if body.Err? then body
    else
      var v := ValidateRegister(body.value, isEmail);
      if v.Fail? then Err(v.error) else body
  }

  /** The message register gives for a taken email. */
  const EmailExists := Failure("email already exists")

  /** The duplicate-email test of the register handler as written: only userbus's sentinel. */
  predicate IsDuplicateEmailAsWritten(e: Error)
  {
    Is(e, UserbusUniqueEmail)
  }

  /** The duplicate-email test with the business layer's own sentinel recognised too. */
  predicate IsDuplicateEmail(e: Error)
  {
    Is(e, UniqueEmail) || Is(e, UserbusUniqueEmail)
  }

  /** The register handler's answer to a failed `Create`, as written. */
  function CreateErrorResponseAsWritten(e: Error): (r: Response)
    ensures Is(e, UserbusUniqueEmail) ==> r == FieldError("email", EmailExists)
    ensures !Is(e, UserbusUniqueEmail) ==> r == ErrorResponse(Internal, e)
    ensures Is(e, UniqueEmail) && !Is(e, UserbusUniqueEmail) ==> r.ErrorResponse?
  {
    if IsDuplicateEmailAsWritten(e) then FieldError("email", EmailExists) else ErrorResponse(Internal, e)
  }

  /** The register handler's answer to a failed `Create`, either sentinel meaning a taken email. */
  function CreateErrorResponse(e: Error): (r: Response)
    ensures Is(e, UniqueEmail) || Is(e, UserbusUniqueEmail) ==> r == FieldError("email", EmailExists)
    ensures !Is(e, UniqueEmail) && !Is(e, UserbusUniqueEmail) ==> r == ErrorResponse(Internal, e)
  {
    if IsDuplicateEmail(e) then FieldError("email", EmailExists) else ErrorResponse(Internal, e)
  }

  /**
   * As written, a store that reports a taken email with the business layer's
   * `ErrUniqueEmail` gets an internal error from register, not the "email
   * already exists" field error; the corrected test gives the field error.
   */
  lemma UniqueEmailMissedAsWritten()
    ensures CreateErrorResponseAsWritten(Wrapped("create", UniqueEmail)) == ErrorResponse(Internal, Wrapped("create", UniqueEmail))
    ensures CreateErrorResponse(Wrapped("create", UniqueEmail)) == FieldError("email", EmailExists)
  {
    assert !Is(UniqueEmail, UserbusUniqueEmail);
  }

  /**
   * userbus's sentinel is recognised however many wraps the store puts around
   * it before the business layer's "create" wrap.
   */
  lemma DuplicateEmailSurvivesWrapping(contexts: seq<string>)
    ensures CreateErrorResponseAsWritten(Wrapped("create", WrapAll(contexts, UserbusUniqueEmail)))
      == FieldError("email", EmailExists)
  {
    IsSurvivesWrapping(contexts, UserbusUniqueEmail, UserbusUniqueEmail);
  }

  /** The two tests agree on every error except those carrying only the business layer's sentinel. */
  lemma DuplicateEmailTestsAgree(e: Error)
    ensures IsDuplicateEmailAsWritten(e) ==> IsDuplicateEmail(e)
    ensures IsDuplicateEmail(e) && !IsDuplicateEmailAsWritten(e) ==> Is(e, UniqueEmail)
  {
  }

  /** The token response for `u`, or the signer's failure; `t` is the trace so far. */
  function Issue<S>(app: App, st: Store<S>, u: PublicUser, now: Time, t: seq<Event>): (r: Step<S, Response>)
    requires StoreFirst(t)
    ensures var c := ClaimsFor(u, app.issuer, now); var g := app.generate(app.kid, c);
      && r.store == st && r.trace == t + [GenerateToken(app.kid, c, g.Ok?)]
      && (g.Ok? ==> r.result == Token(LoginResponse(g.value)))
      && (g.Err? ==> r.result == ErrorResponse(Internal, g.error))
    ensures StoreFirst(r.trace)
  {
    var c := ClaimsFor(u, app.issuer, now);
    var g := app.generate(app.kid, c);
    StoreFirstAppend(t, [GenerateToken(app.kid, c, g.Ok?)]);
    var t' := t + [GenerateToken(app.kid, c, g.Ok?)];
    if g.Err? then Step(st, ErrorResponse(Internal, g.error), t') else Step(st, Token(LoginResponse(g.value)), t')
  }

  /**
   * `register`: decode and validate, convert (roles as requested), create, then
   * sign a token for the new user. Only the token is returned; no user data
   * leaves the handler.
   */
  function Register<S>(app: App, env: Env<S>, st: Store<S>, body: Result<RegisterRequest>,
                       id: UUID, salt: Bytes, now: Time): (r: Step<S, Response>)
    ensures var d := DecodeRegister(body, env.isEmail);
      && (d.Err? ==> r == Step(st, ErrorResponse(InvalidArgument, d.error), []))
      && (d.Ok? ==>
            var nu := ToBusPublicNewUser(env.parsers, d.value);
            && (nu.Err? ==> r == Step(st, ErrorResponse(InvalidArgument, nu.error), []))
            && (nu.Ok? ==>
                  var c := PublicUserBus.Create(env.storer, env.bcrypt, st, nu.value, id, salt, now);
                  && r.store == c.store
                  && (c.result.Err? ==> r.result == CreateErrorResponseAsWritten(c.result.error) && r.trace == c.trace)
                  && (c.result.Ok? ==>
                        && c.result.value.roles == env.parsers.parseRoles(d.value.roles).value
                        && var claims := ClaimsFor(c.result.value, app.issuer, now);
                        && r.trace == c.trace + [GenerateToken(app.kid, claims, app.generate(app.kid, claims).Ok?)]
                        && (r.result.Token? <==> app.generate(app.kid, claims).Ok?)
                        && (r.result.Token? ==> r.result.login.token == app.generate(app.kid, claims).value)
                        && (app.generate(app.kid, claims).Err? ==>
                              r.result == ErrorResponse(Internal, app.generate(app.kid, claims).error)))))
    ensures body.Ok? && env.parsers.parseRoles(body.value.roles).Err? ==>
      r.store == st && r.trace == [] && r.result.ErrorResponse? && r.result.code == InvalidArgument
    ensures r.result.Token? ==>
      body.Ok? && ValidateRegister(body.value, env.isEmail).Pass? && env.parsers.parseRoles(body.value.roles).Ok?
    ensures r.result.FieldError? ==> r.result == FieldError("email", EmailExists)
    ensures r.result.ErrorResponse? ==> r.result.code != Unauthenticated
    ensures StoreFirst(r.trace)
  {
    var d := DecodeRegister(body, env.isEmail);
    if d.Err? then Step(st, ErrorResponse(InvalidArgument, d.error), [])
    else
      var nu := ToBusPublicNewUser(env.parsers, d.value);
      if nu.Err? then Step(st, ErrorResponse(InvalidArgument, nu.error), [])
      else
        var c := PublicUserBus.Create(env.storer, env.bcrypt, st, nu.value, id, salt, now);
        if c.result.Err? then Step(c.store, CreateErrorResponseAsWritten(c.result.error), c.trace)
        else Issue(app, c.store, c.result.value, now, c.trace)
  }

  /**
   * `register` with both corrections: every new user gets the USER role, and a
   * taken email is recognised by either unique-email sentinel.
   */
  function RegisterCorrected<S>(app: App, env: Env<S>, st: Store<S>, body: Result<RegisterRequest>,
                                id: UUID, salt: Bytes, now: Time): (r: Step<S, Response>)
    ensures var d := DecodeRegister(body, env.isEmail);
      && (d.Err? ==> r == Step(st, ErrorResponse(InvalidArgument, d.error), []))
      && (d.Ok? ==>
            var nu := ToBusPublicNewUserAsUser(env.parsers, d.value);
            && (nu.Err? ==> r == Step(st, ErrorResponse(InvalidArgument, nu.error), []))
            && (nu.Ok? ==>
                  var c := PublicUserBus.Create(env.storer, env.bcrypt, st, nu.value, id, salt, now);
                  && r.store == c.store
                  && (c.result.Err? ==> r.result == CreateErrorResponse(c.result.error) && r.trace == c.trace)
                  && (c.result.Ok? ==>
                        && c.result.value.roles == [RoleUser]
                        && var claims := ClaimsFor(c.result.value, app.issuer, now);
                        && r.trace == c.trace + [GenerateToken(app.kid, claims, app.generate(app.kid, claims).Ok?)]
                        && (r.result.Token? <==> app.generate(app.kid, claims).Ok?)
                        && (r.result.Token? ==> r.result.login.token == app.generate(app.kid, claims).value)
                        && (app.generate(app.kid, claims).Err? ==>
                              r.result == ErrorResponse(Internal, app.generate(app.kid, claims).error)))))
    ensures r.result.Token? ==> body.Ok? && ValidateRegister(body.value, env.isEmail).Pass?
    ensures r.result.FieldError? ==> r.result == FieldError("email", EmailExists)
    ensures r.result.ErrorResponse? ==> r.result.code != Unauthenticated
    ensures StoreFirst(r.trace)
  {
    var d := DecodeRegister(body, env.isEmail);
    if d.Err? then Step(st, ErrorResponse(InvalidArgument, d.error), [])
    else
      var nu := ToBusPublicNewUserAsUser(env.parsers, d.value);
      if nu.Err? then Step(st, ErrorResponse(InvalidArgument, nu.error), [])
      else
        var c := PublicUserBus.Create(env.storer, env.bcrypt, st, nu.value, id, salt, now);
        if c.result.Err? then Step(c.store, CreateErrorResponse(c.result.error), c.trace)
        else Issue(app, c.store, c.result.value, now, c.trace)
  }

  /** The one answer login gives to every failed authentication. */
  const BadCredentials := ErrorResponse(Unauthenticated, Failure("invalid email or password"))

  /**
   * `login`: decode, check the email's syntax, authenticate, then sign a token
   * for the user found. Every authentication failure gets the same answer.
   */
  function Login<S>(app: App, env: Env<S>, st: Store<S>, body: Result<LoginRequest>, now: Time): (r: Step<S, Response>)
    ensures body.Err? ==> r == Step(st, ErrorResponse(InvalidArgument, body.error), [])
    ensures body.Ok? && env.parsers.parseAddress(body.value.email).Err? ==>
      r == Step(st, FieldError("email", Failure("invalid email format")), [])
    ensures body.Ok? && env.parsers.parseAddress(body.value.email).Ok? ==>
      var a := PublicUserBus.Authenticate(env.storer, env.bcrypt, st, env.parsers.parseAddress(body.value.email).value,
                                          body.value.password);
      && r.store == a.store
      && (a.result.Err? ==> r.result == BadCredentials && r.trace == a.trace)
      && (a.result.Ok? ==>
            && env.bcrypt.matches(a.result.value.passwordHash, body.value.password)
            && var claims := ClaimsFor(a.result.value, app.issuer, now);
            && r.trace == a.trace + [GenerateToken(app.kid, claims, app.generate(app.kid, claims).Ok?)]
            && (r.result.Token? <==> app.generate(app.kid, claims).Ok?)
            && (r.result.Token? ==> r.result.login.token == app.generate(app.kid, claims).value)
            && (app.generate(app.kid, claims).Err? ==>
                  r.result == ErrorResponse(Internal, app.generate(app.kid, claims).error)))
    ensures r.result.ErrorResponse? && r.result.code == Unauthenticated ==> r.result == BadCredentials
    ensures r.result == BadCredentials <==>
      body.Ok? && env.parsers.parseAddress(body.value.email).Ok?
      && PublicUserBus.Authenticate(env.storer, env.bcrypt, st, env.parsers.parseAddress(body.value.email).value,
                                    body.value.password).result.Err?
    ensures StoreFirst(r.trace)
  {
    if body.Err? then Step(st, ErrorResponse(InvalidArgument, body.error), [])
    else
      var addr := env.parsers.parseAddress(body.value.email);
      if addr.Err? then Step(st, FieldError("email", Failure("invalid email format")), [])
      else
        var a := PublicUserBus.Authenticate(env.storer, env.bcrypt, st, addr.value, body.value.password);
        if a.result.Err? then Step(a.store, BadCredentials, a.trace)
        else Issue(app, a.store, a.result.value, now, a.trace)
  }

  /**
   * An unknown email and a known email with the wrong password get the same
   * response. (Their traces differ: see `LoginWorkRevealsEmail`.)
   */
  lemma LoginHidesWhichCheckFailed<S>(app: App, env: Env<S>, st: Store<S>, unknown: LoginRequest,
                                      known: LoginRequest, now: Time)
    requires env.parsers.parseAddress(unknown.email).Ok? && env.parsers.parseAddress(known.email).Ok?
    requires var e := env.parsers.parseAddress(unknown.email).value;
      e.address !in st.cache && env.storer.queryByEmail(st.db, e) == Err(NotFound)
    requires var e := env.parsers.parseAddress(known.email).value;
      && e.address in st.cache
      && !env.bcrypt.matches(st.cache[e.address].passwordHash, known.password)
    ensures Login(app, env, st, Ok(unknown), now).result == Login(app, env, st, Ok(known), now).result == BadCredentials
  {
  }

  /**
   * As written, the two failures do different work: an unknown email is
   * answered without any password comparison, while a known email with the
   * wrong password runs bcrypt's comparison, the slow step. The time a
   * failed login takes therefore tells whether the email is registered.
   */
  lemma LoginWorkRevealsEmail<S>(app: App, env: Env<S>, st: Store<S>, unknown: LoginRequest,
                                 known: LoginRequest, now: Time)
    requires env.parsers.parseAddress(unknown.email).Ok? && env.parsers.parseAddress(known.email).Ok?
    requires var e := env.parsers.parseAddress(unknown.email).value;
      e.address !in st.cache && env.storer.queryByEmail(st.db, e) == Err(NotFound)
    requires var e := env.parsers.parseAddress(known.email).value;
      && e.address in st.cache
      && !env.bcrypt.matches(st.cache[e.address].passwordHash, known.password)
    ensures var t := Login(app, env, st, Ok(unknown), now).trace;
      forall i | 0 <= i < |t| :: !t[i].ComparePassword?
    ensures var t := Login(app, env, st, Ok(known), now).trace;
      |t| > 0 && t[|t| - 1] == ComparePassword(false)
  {
  }

  /**
   * `login` with the failure paths made alike: authentication compares the
   * password against `dummy` when the email is unknown. Every response and
   * store is the one `Login` gives; what changes is that every answer after a
   * parsed email has compared a password exactly once.
   */
  function LoginUniform<S>(app: App, env: Env<S>, st: Store<S>, body: Result<LoginRequest>, now: Time,
                           dummy: Bytes): (r: Step<S, Response>)
    ensures var l := Login(app, env, st, body, now);
      r.store == l.store && r.result == l.result
    ensures r.result == BadCredentials ==> ComparesOnceAtEnd(r.trace)
    ensures StoreFirst(r.trace)
  {
    if body.Err? then Step(st, ErrorResponse(InvalidArgument, body.error), [])
    else
      var addr := env.parsers.parseAddress(body.value.email);
      if addr.Err? then Step(st, FieldError("email", Failure("invalid email format")), [])
      else
        var a := PublicUserBus.AuthenticateUniform(env.storer, env.bcrypt, st, addr.value, body.value.password, dummy);
        if a.result.Err? then Step(a.store, BadCredentials, a.trace)
        else Issue(app, a.store, a.result.value, now, a.trace)
  }

  /**
   * With the correction, an unknown email and a known email with the wrong
   * password get the same response after the same work: one comparison, last.
   */
  lemma LoginUniformHidesEmail<S>(app: App, env: Env<S>, st: Store<S>, unknown: LoginRequest,
                                  known: LoginRequest, now: Time, dummy: Bytes)
    requires env.parsers.parseAddress(unknown.email).Ok? && env.parsers.parseAddress(known.email).Ok?
    requires var e := env.parsers.parseAddress(unknown.email).value;
      e.address !in st.cache && env.storer.queryByEmail(st.db, e) == Err(NotFound)
    requires var e := env.parsers.parseAddress(known.email).value;
      && e.address in st.cache
      && !env.bcrypt.matches(st.cache[e.address].passwordHash, known.password)
    ensures var u := LoginUniform(app, env, st, Ok(unknown), now, dummy);
      var k := LoginUniform(app, env, st, Ok(known), now, dummy);
      && u.result == k.result == BadCredentials
      && ComparesOnceAtEnd(u.trace) && ComparesOnceAtEnd(k.trace)
  {
    LoginHidesWhichCheckFailed(app, env, st, unknown, known, now);
  }

  /**
   * Logging in right after creating a user, with its email and password and a
   * sound bcrypt, is answered from the cache, and signs the claims of the user
   * just created.
   */
  lemma LoginAfterCreate<S>(app: App, env: Env<S>, st: Store<S>, nu: NewPublicUser,
                            id: UUID, salt: Bytes, t1: Time, req: LoginRequest, t2: Time)
    requires PublicUserBus.Sound(env.bcrypt)
    requires PublicUserBus.Create(env.storer, env.bcrypt, st, nu, id, salt, t1).result.Ok?
    requires env.parsers.parseAddress(req.email).Ok?
    requires env.parsers.parseAddress(req.email).value.address == nu.email.address
    requires req.password == nu.password
    ensures var c := PublicUserBus.Create(env.storer, env.bcrypt, st, nu, id, salt, t1);
      var log := Login(app, env, c.store, Ok(req), t2);
      && log.store == c.store
      && !TouchesStore(log.trace)
      && |log.trace| > 0 && log.trace[|log.trace| - 1].GenerateToken?
      && log.trace[|log.trace| - 1].claims == ClaimsFor(c.result.value, app.issuer, t2)
  {
    var c := PublicUserBus.Create(env.storer, env.bcrypt, st, nu, id, salt, t1);
    var addr := env.parsers.parseAddress(req.email).value;
    PublicUserBus.CreateThenAuthenticate(env.storer, env.bcrypt, st, nu, id, salt, t1, addr);
    var a := PublicUserBus.Authenticate(env.storer, env.bcrypt, c.store, addr, req.password);
    assert a.result == c.result && !TouchesStore(a.trace);
    var claims := ClaimsFor(c.result.value, app.issuer, t2);
    var log := Login(app, env, c.store, Ok(req), t2);
    assert log.trace == a.trace + [GenerateToken(app.kid, claims, app.generate(app.kid, claims).Ok?)];
    assert !TouchesStore(log.trace) by {
      forall i | 0 <= i < |log.trace| ensures !log.trace[i].StoreCalled? {
        if i < |a.trace| {
          assert log.trace[i] == a.trace[i];
        }
      }
    }
  }

  /**
   * Register, then log in with the same email and password: with a sound bcrypt
   * the login is answered from the cache, for the user just created, and its
   * token carries that user's id and the roles the registration asked for.
   */
  lemma RegisterThenLogin<S>(app: App, env: Env<S>, st: Store<S>, req: RegisterRequest,
                             id: UUID, salt: Bytes, t1: Time, t2: Time)
    requires PublicUserBus.Sound(env.bcrypt)
    requires Register(app, env, st, Ok(req), id, salt, t1).result.Token?
    ensures var reg := Register(app, env, st, Ok(req), id, salt, t1);
      var log := Login(app, env, reg.store, Ok(LoginRequest(req.email, req.password)), t2);
      && log.store == reg.store
      && !TouchesStore(log.trace)
      && |log.trace| > 0 && log.trace[|log.trace| - 1].GenerateToken?
      && var claims := log.trace[|log.trace| - 1].claims;
      && claims.subject == UuidString(id) && claims.roles == RoleStrings(env.parsers.parseRoles(req.roles).value)
      && claims.expiresAt == t2 + TokenLifetime
  {
    var nu := ToBusPublicNewUser(env.parsers, req).value;
    LoginAfterCreate(app, env, st, nu, id, salt, t1, LoginRequest(req.email, req.password), t2);
  }

  /** The same round trip through the corrected handler: the token carries exactly the USER role. */
  lemma RegisterCorrectedThenLogin<S>(app: App, env: Env<S>, st: Store<S>, req: RegisterRequest,
                                      id: UUID, salt: Bytes, t1: Time, t2: Time)
    requires PublicUserBus.Sound(env.bcrypt)
    requires RegisterCorrected(app, env, st, Ok(req), id, salt, t1).result.Token?
    ensures var reg := RegisterCorrected(app, env, st, Ok(req), id, salt, t1);
      var log := Login(app, env, reg.store, Ok(LoginRequest(req.email, req.password)), t2);
      && log.store == reg.store
      && !TouchesStore(log.trace)
      && |log.trace| > 0 && log.trace[|log.trace| - 1].GenerateToken?
      && var claims := log.trace[|log.trace| - 1].claims;
      && claims.subject == UuidString(id) && claims.roles == ["USER"]
      && claims.expiresAt == t2 + TokenLifetime
  {
    var nu := ToBusPublicNewUserAsUser(env.parsers, req).value;
    LoginAfterCreate(app, env, st, nu, id, salt, t1, LoginRequest(req.email, req.password), t2);
  }

  /**
   * As written, a self-registering client that asks for ADMIN is issued an
   * ADMIN token whenever the role parser accepts "ADMIN"; the corrected handler
   * issues it the USER role instead.
   */
  lemma RegisterGrantsRequestedAdmin<S>(app: App, env: Env<S>, st: Store<S>, req: RegisterRequest,
                                        id: UUID, salt: Bytes, now: Time)
    requires req.roles == ["ADMIN"]
    requires env.parsers.parseRoles(["ADMIN"]) == Ok([Role("ADMIN")])
    requires Register(app, env, st, Ok(req), id, salt, now).result.Token?
    requires RegisterCorrected(app, env, st, Ok(req), id, salt, now).result.Token?
    ensures var r := Register(app, env, st, Ok(req), id, salt, now);
      && |r.trace| > 0 && r.trace[|r.trace| - 1].GenerateToken?
      && r.trace[|r.trace| - 1].claims.roles == ["ADMIN"]
    ensures var r := RegisterCorrected(app, env, st, Ok(req), id, salt, now);
      && |r.trace| > 0 && r.trace[|r.trace| - 1].GenerateToken?
      && r.trace[|r.trace| - 1].claims.roles == ["USER"]
  {
  }

  /**
   * A failure to sign the token comes after the user was created: register
   * answers with an internal error carrying the signer's failure, yet the
   * durable create of the new record succeeded, the store holds its outcome,
   * and the record is cached.
   */
  lemma SigningFailureKeepsUser<S>(app: App, env: Env<S>, st: Store<S>, req: RegisterRequest,
                                   id: UUID, salt: Bytes, now: Time)
    requires ValidateRegister(req, env.isEmail).Pass? && ToBusPublicNewUser(env.parsers, req).Ok?
    requires PublicUserBus.Create(env.storer, env.bcrypt, st, ToBusPublicNewUser(env.parsers, req).value,
                                  id, salt, now).result.Ok?
    requires var u := PublicUserBus.Create(env.storer, env.bcrypt, st, ToBusPublicNewUser(env.parsers, req).value,
                                           id, salt, now).result.value;
      app.generate(app.kid, ClaimsFor(u, app.issuer, now)).Err?
    ensures var r := Register(app, env, st, Ok(req), id, salt, now);
      var u := PublicUserBus.Create(env.storer, env.bcrypt, st, ToBusPublicNewUser(env.parsers, req).value,
                                    id, salt, now).result.value;
      && r.result == ErrorResponse(Internal, app.generate(app.kid, ClaimsFor(u, app.issuer, now)).error)
      && u.id == id
      && env.storer.create(st.db, u) == Written(r.store.db, Pass)
      && CachedUnderBothKeys(r.store.cache, u)
  {
    var nu := ToBusPublicNewUser(env.parsers, req).value;
    var c := PublicUserBus.Create(env.storer, env.bcrypt, st, nu, id, salt, now);
    assert c.trace[1].call.usr == c.result.value;
  }
}

=== FILE: public_app_model.dfy ===
/**
 * The app-layer models of the public user API (app/domain/publicapp/model.go):
 * the outward `User` view and its JSON projection, the register and login
 * requests with their `validate` tags, and the conversion of a register request
 * into a business `NewPublicUser`.
 */
module PublicAppModel {
  import opened Results
  import opened Values
  import opened PublicUserModel

  // ---------------------------------------------------------------------------
  // The outward user view.

  /** The app-level `User`: every value rendered as text, the hash kept as bytes. */
  datatype User = User(
    id: string,
    name: string,
    email: string,
    roles: seq<string>,
    passwordHash: Bytes,
    department: string,
    enabled: bool,
    dateCreated: string,
    dateUpdated: string)

  /** `toAppUser`; `format` renders a time as RFC 3339 text (`time.RFC3339`). */
  function ToAppUser(u: PublicUser, format: Time -> string): (r: User)
    ensures r.id == UuidString(u.id) && r.name == u.name.value && r.email == u.email.address
    ensures r.roles == RoleStrings(u.roles) && r.passwordHash == u.passwordHash
    ensures r.department == u.department.value && r.enabled == u.enabled
    ensures r.dateCreated == format(u.dateCreated) && r.dateUpdated == format(u.dateUpdated)
  {
    User(UuidString(u.id), u.name.value, u.email.address, RoleStrings(u.roles), u.passwordHash,
         u.department.value, u.enabled, format(u.dateCreated), format(u.dateUpdated))
  }

  /** A JSON value of the kinds `User` has. */
  datatype Json = JString(s: string) | JBool(b: bool) | JStrings(ss: seq<string>) | JBytes(bs: Bytes)

  /** A struct field: its `json` tag and its value. */
  datatype Field = Field(tag: string, value: Json)

  /** The fields of `User` in declaration order, with their `json` tags; the hash is tagged "-". */
  function UserFields(u: User): seq<Field>
  {
    [ Field("id", JString(u.id)), Field("name", JString(u.name)), Field("email", JString(u.email)),
      Field("roles", JStrings(u.roles)), Field("-", JBytes(u.passwordHash)),
      Field("department", JString(u.department)), Field("enabled", JBool(u.enabled)),
      Field("dateCreated", JString(u.dateCreated)), Field("dateUpdated", JString(u.dateUpdated)) ]
  }

  /** encoding/json's object for a struct: each field under its tag, in order, fields tagged "-" skipped. */
  function Marshal(fields: seq<Field>): (r: seq<(string, Json)>)
    ensures |r| <= |fields|
    decreases |fields|
  {
    if fields == [] then []
    else if fields[0].tag == "-" then Marshal(fields[1..])
    else [(fields[0].tag, fields[0].value)] + Marshal(fields[1..])
  }

  /**
   * What marshalling keeps: no entry is tagged "-", every other field appears
   * under its tag with its value, and nothing else appears.
   */
  lemma {:induction false} MarshalKeepsTaggedFields(fields: seq<Field>)
    ensures forall i | 0 <= i < |Marshal(fields)| :: Marshal(fields)[i].0 != "-"
    ensures forall f | f in fields && f.tag != "-" :: (f.tag, f.value) in Marshal(fields)
    ensures forall e | e in Marshal(fields) :: Field(e.0, e.1) in fields
    decreases |fields|
  {
    if fields != [] {
      MarshalKeepsTaggedFields(fields[1..]);
      assert forall f | f in fields :: f == fields[0] || f in fields[1..];
    }
  }

  /**
   * `User.Encode`: the JSON object of the user. Every field of `User` except the
   * hash appears under its tag with its value, and nothing else appears.
   */
  function Encode(u: User): (r: seq<(string, Json)>)
    ensures forall f | f in UserFields(u) && f.tag != "-" :: (f.tag, f.value) in r
    ensures forall e | e in r :: e.0 != "-" && Field(e.0, e.1) in UserFields(u)
  {
    MarshalKeepsTaggedFields(UserFields(u));
    Marshal(UserFields(u))
  }

  /** The encoding, field by field: the eight tagged fields in declaration order. */
  lemma EncodeFields(u: User)
    ensures Encode(u) == [ ("id", JString(u.id)), ("name", JString(u.name)), ("email", JString(u.email)),
                           ("roles", JStrings(u.roles)), ("department", JString(u.department)),
                           ("enabled", JBool(u.enabled)), ("dateCreated", JString(u.dateCreated)),
                           ("dateUpdated", JString(u.dateUpdated)) ]
  {
    MarshalUserFields(u);
  }

  /** `Marshal` over the fields of `User`, unfolded one field at a time. */
  lemma MarshalUserFields(u: User)
    ensures Marshal(UserFields(u)) == [ ("id", JString(u.id)), ("name", JString(u.name)), ("email", JString(u.email)),
                                        ("roles", JStrings(u.roles)), ("department", JString(u.department)),
                                        ("enabled", JBool(u.enabled)), ("dateCreated", JString(u.dateCreated)),
                                        ("dateUpdated", JString(u.dateUpdated)) ]
  {
    var fs := UserFields(u);
    assert Marshal(fs[9..]) == [];
    assert fs[8..][1..] == fs[9..];
    assert Marshal(fs[8..]) == [("dateUpdated", JString(u.dateUpdated))];
    assert fs[7..][1..] == fs[8..];
    assert Marshal(fs[7..]) == [("dateCreated", JString(u.dateCreated))] + Marshal(fs[8..]);
    assert fs[6..][1..] == fs[7..];
    assert Marshal(fs[6..]) == [("enabled", JBool(u.enabled))] + Marshal(fs[7..]);
    assert fs[5..][1..] == fs[6..];
    assert Marshal(fs[5..]) == [("department", JString(u.department))] + Marshal(fs[6..]);
    assert fs[4..][1..] == fs[5..];
    assert fs[4].tag == "-";
    assert Marshal(fs[4..]) == Marshal(fs[5..]);
    assert fs[3..][1..] == fs[4..];
    assert Marshal(fs[3..]) == [("roles", JStrings(u.roles))] + Marshal(fs[4..]);
    assert fs[2..][1..] == fs[3..];
    assert Marshal(fs[2..]) == [("email", JString(u.email))] + Marshal(fs[3..]);
    assert fs[1..][1..] == fs[2..];
    assert Marshal(fs[1..]) == [("name", JString(u.name))] + Marshal(fs[2..]);
    assert Marshal(fs) == [("id", JString(u.id))] + Marshal(fs[1..]);
  }

  /**
   * The JSON projection never carries the password hash: no value is raw bytes,
   * and changing the hash leaves the encoding unchanged.
   */
  lemma EncodeOmitsHash(u: User, hash: Bytes)
    ensures forall i | 0 <= i < |Encode(u)| :: !Encode(u)[i].1.JBytes?
    ensures Encode(u.(passwordHash := hash)) == Encode(u)
  {
    EncodeFields(u);
    EncodeFields(u.(passwordHash := hash));
  }

  /**
   * The outward view as a client receives it: the encoded user carries the
   * user's ID key, bare email address and role names, and is the same whatever
   * the password hash.
   */
  lemma AppUserEncoding(u: PublicUser, format: Time -> string, hash: Bytes)
    ensures ("id", JString(UuidString(u.id))) in Encode(ToAppUser(u, format))
    ensures ("email", JString(u.email.address)) in Encode(ToAppUser(u, format))
    ensures ("roles", JStrings(RoleStrings(u.roles))) in Encode(ToAppUser(u, format))
    ensures Encode(ToAppUser(u.(passwordHash := hash), format)) == Encode(ToAppUser(u, format))
  {
    EncodeFields(ToAppUser(u, format));
    EncodeFields(ToAppUser(u.(passwordHash := hash), format));
  }

  // ---------------------------------------------------------------------------
  // Request validation: the `validate` struct tags.

  /** One rule of a `validate` tag. */
  datatype Rule =
    | Required              // `required`: not the empty string
    | MinLength(n: nat)     // `min=n` on a string: at least n characters
    | EqField(field: string)  // `eqfield=F`: equal to the field whose Go name is F
    | EmailFormat           // `email`: the validator's email syntax, passed in as `isEmail`

  /** A string field of a request: Go name, JSON name, value, and its tag's rules. */
  datatype Tagged = Tagged(goName: string, jsonName: string, value: string, rules: seq<Rule>)

  /** The value of the field called `goName`, if any. */
  function Lookup(fields: seq<Tagged>, goName: string): Option<string>
    decreases |fields|
  {
    if fields == [] then None
    else if fields[0].goName == goName then Some(fields[0].value)
    else Lookup(fields[1..], goName)
  }

  predicate Holds(rule: Rule, value: string, all: seq<Tagged>, isEmail: string -> bool)
  {
    match rule
    case Required => value != ""
    case MinLength(n) => |value| >= n
    case EqField(other) => Lookup(all, other) == Some(value)
    case EmailFormat => isEmail(value)
  }

  predicate AllHold(f: Tagged, all: seq<Tagged>, isEmail: string -> bool)
  {
    forall j | 0 <= j < |f.rules| :: Holds(f.rules[j], f.value, all, isEmail)
  }

  /** A field with one rule passes exactly when that rule holds. */
  lemma OneRule(f: Tagged, all: seq<Tagged>, isEmail: string -> bool)
    requires |f.rules| == 1
    ensures AllHold(f, all, isEmail) <==> Holds(f.rules[0], f.value, all, isEmail)
  {
  }

  /** A field with two rules passes exactly when both hold. */
  lemma TwoRules(f: Tagged, all: seq<Tagged>, isEmail: string -> bool)
    requires |f.rules| == 2
    ensures AllHold(f, all, isEmail) <==> Holds(f.rules[0], f.value, all, isEmail) && Holds(f.rules[1], f.value, all, isEmail)
  {
  }

  /** The JSON names of the fields some rule rejects, in field order (`errs.Check`). */
  function Failing(fields: seq<Tagged>, all: seq<Tagged>, isEmail: string -> bool): (r: seq<string>)
    ensures r == [] <==> forall i | 0 <= i < |fields| :: AllHold(fields[i], all, isEmail)
    ensures forall i | 0 <= i < |fields| && !AllHold(fields[i], all, isEmail) :: fields[i].jsonName in r
    ensures forall n | n in r :: exists i | 0 <= i < |fields| :: fields[i].jsonName == n && !AllHold(fields[i], all, isEmail)
    decreases |fields|
  {
    if fields == [] then []
    else
      var rest := Failing(fields[1..], all, isEmail);
      assert forall i | 1 <= i < |fields| :: fields[i] == fields[1..][i - 1];
      if AllHold(fields[0], all, isEmail) then rest else [fields[0].jsonName] + rest
  }

  /** Validates a request's tagged fields: pass, or the failing field names. */
  function Check(fields: seq<Tagged>, isEmail: string -> bool): Outcome
  {
    var failing := Failing(fields, fields, isEmail);
    if failing == [] then Pass else Fail(Wrapped("validate", InvalidFields(failing)))
  }

  /** `RegisterRequest`: what a client sends to register. */
  datatype RegisterRequest = RegisterRequest(
    name: string,
    email: string,
    department: string,
    password: string,
    passwordConfirm: string,
    roles: seq<string>)

  /** The tagged string fields of `RegisterRequest`; `Roles` carries no tag. */
  function RegisterFields(req: RegisterRequest): seq<Tagged>
  {
    [ Tagged("Name", "name", req.name, [Required]),
      Tagged("Email", "email", req.email, [Required, EmailFormat]),
      Tagged("Department", "department", req.department, []),
      Tagged("Password", "password", req.password, [Required, MinLength(8)]),
      Tagged("PasswordConfirm", "passwordConfirm", req.passwordConfirm, [Required, EqField("Password")]) ]
  }

  /**
   * `RegisterRequest.Validate`: passes exactly when every tagged field keeps all
   * the rules of its tag; otherwise it reports the JSON names of exactly the
   * fields that break one, wrapped once.
   */
  function ValidateRegister(req: RegisterRequest, isEmail: string -> bool): (r: Outcome)
    ensures var fs := RegisterFields(req);
      && (r.Pass? <==> forall i | 0 <= i < |fs| :: AllHold(fs[i], fs, isEmail))
      && (r.Fail? ==>
            && r.error.Wrapped? && r.error.inner.InvalidFields? && r.error.inner.fields != []
            && (forall i | 0 <= i < |fs| && !AllHold(fs[i], fs, isEmail) :: fs[i].jsonName in r.error.inner.fields)
            && (forall n | n in r.error.inner.fields ::
                  exists i | 0 <= i < |fs| :: fs[i].jsonName == n && !AllHold(fs[i], fs, isEmail)))
  {
    Check(RegisterFields(req), isEmail)
  }

  /**
   * A register request is valid exactly when the name and email are present, the
   * email has email syntax, the password has at least eight characters and the
   * confirmation equals it; a short password is always reported on "password".
   */
  lemma RegisterValidationMeans(req: RegisterRequest, isEmail: string -> bool)
    ensures ValidateRegister(req, isEmail).Pass? <==>
      && req.name != "" && req.email != "" && isEmail(req.email)
      && |req.password| >= 8 && req.passwordConfirm == req.password
    ensures |req.password| < 8 ==>
      ValidateRegister(req, isEmail).Fail? && ValidateRegister(req, isEmail).error.inner.fields != []
      && "password" in ValidateRegister(req, isEmail).error.inner.fields
  {
    var fs := RegisterFields(req);
    RegisterRulesMean(req, isEmail);
    assert fs[3].jsonName == "password";
  }

  /** The rules of the register tags, field by field. */
  lemma RegisterRulesMean(req: RegisterRequest, isEmail: string -> bool)
    ensures var fs := RegisterFields(req);
      && ((forall i | 0 <= i < |fs| :: AllHold(fs[i], fs, isEmail)) <==>
            && req.name != "" && req.email != "" && isEmail(req.email)
            && |req.password| >= 8 && req.passwordConfirm == req.password)
      && (|req.password| < 8 ==> !AllHold(fs[3], fs, isEmail))
  {
    var fs := RegisterFields(req);
    var pw := "Password";
    assert pw[0] == 'P';
    assert fs[3..][0].goName == pw;
    assert fs[2..][0].goName[0] != pw[0] && fs[2..][1..] == fs[3..];
    assert fs[1..][0].goName[0] != pw[0] && fs[1..][1..] == fs[2..];
    assert fs[0].goName[0] != pw[0];
    assert Lookup(fs[3..], pw) == Some(req.password);
    assert Lookup(fs[2..], pw) == Some(req.password);
    assert Lookup(fs[1..], pw) == Some(req.password);
    assert Lookup(fs, pw) == Some(req.password);
    OneRule(fs[0], fs, isEmail);
    TwoRules(fs[1], fs, isEmail);
    assert AllHold(fs[2], fs, isEmail);
    TwoRules(fs[3], fs, isEmail);
    TwoRules(fs[4], fs, isEmail);
  }

  /**
   * `LoginRequest`: what a client sends to log in. It has no `Validate` method,
   * so its `validate` tags are never applied; the login handler checks only the
   * email syntax itself.
   */
  datatype LoginRequest = LoginRequest(email: string, password: string)

  /** `LoginResponse`: the only thing a successful register or login returns. */
  datatype LoginResponse = LoginResponse(token: string)

  // ---------------------------------------------------------------------------
  // From request to business record.

  /**
   * `toBusPublicNewUser`: parse roles, email, name and department in that order,
   * returning the first failure. The password is copied verbatim and the
   * requested roles are kept as parsed.
   */
  function ToBusPublicNewUser(p: Parsers, req: RegisterRequest): (r: Result<NewPublicUser>)
    ensures var roles, addr, name, dept :=
        p.parseRoles(req.roles), p.parseAddress(req.email), p.parseName(req.name), p.parseNullName(req.department);
      && (roles.Err? ==> r == Err(Wrapped("parse", roles.error)))
      && (roles.Ok? && addr.Err? ==> r == Err(Wrapped("parse", addr.error)))
      && (roles.Ok? && addr.Ok? && name.Err? ==> r == Err(Wrapped("parse", name.error)))
      && (roles.Ok? && addr.Ok? && name.Ok? && dept.Err? ==> r == Err(Wrapped("parse", dept.error)))
      && (r.Ok? <==> roles.Ok? && addr.Ok? && name.Ok? && dept.Ok?)
      && (r.Ok? ==>
            && r.value.roles == roles.value && r.value.email == addr.value
            && r.value.name == name.value && r.value.department == dept.value)
    ensures r.Ok? ==> r.value.password == req.password
  {
    var roles := p.parseRoles(req.roles);
    if roles.Err? then Err(Wrapped("parse", roles.error))
    else
      var addr := p.parseAddress(req.email);
      if addr.Err? then Err(Wrapped("parse", addr.error))
      else
        var name := p.parseName(req.name);
        if name.Err? then Err(Wrapped("parse", name.error))
        else
          var dept := p.parseNullName(req.department);
          if dept.Err? then Err(Wrapped("parse", dept.error))
          else Ok(NewPublicUser(name.value, addr.value, roles.value, dept.value, req.password))
  }

  /** The role every self-registered user is meant to get. */
  const RoleUser := Role("USER")

  /**
   * As written, a self-registering client chooses its own roles: whenever the
   * role parser accepts "ADMIN" and the other fields parse, a request asking for
   * ADMIN yields a new user with the ADMIN role.
   */
  lemma SelfRegisteredAdmin(p: Parsers, req: RegisterRequest)
    requires req.roles == ["ADMIN"]
    requires p.parseRoles(["ADMIN"]) == Ok([Role("ADMIN")])
    requires p.parseAddress(req.email).Ok? && p.parseName(req.name).Ok? && p.parseNullName(req.department).Ok?
    ensures ToBusPublicNewUser(p, req).Ok?
    ensures ToBusPublicNewUser(p, req).value.roles == [Role("ADMIN")] != [RoleUser]
  {
  }

  /**
   * The conversion with roles overridden to USER, as the request type documents:
   * the requested roles are neither parsed nor kept.
   */
  function ToBusPublicNewUserAsUser(p: Parsers, req: RegisterRequest): (r: Result<NewPublicUser>)
    ensures r.Ok? ==> r.value.roles == [RoleUser]
    ensures r.Ok? <==> p.parseAddress(req.email).Ok? && p.parseName(req.name).Ok? && p.parseNullName(req.department).Ok?
    ensures r.Ok? && p.parseRoles(req.roles).Ok? ==>
      r.value.(roles := p.parseRoles(req.roles).value) == ToBusPublicNewUser(p, req).value
  {
    var addr := p.parseAddress(req.email);
    if addr.Err? then Err(Wrapped("parse", addr.error))
    else
      var name := p.parseName(req.name);
      if name.Err? then Err(Wrapped("parse", name.error))
      else
        var dept := p.parseNullName(req.department);
        if dept.Err? then Err(Wrapped("parse", dept.error))
        else Ok(NewPublicUser(name.value, addr.value, [RoleUser], dept.value, req.password))
  }

  /** With the override, what a client asks for in `roles` makes no difference. */
  lemma AsUserIgnoresRequestedRoles(p: Parsers, req: RegisterRequest, roles: seq<string>)
    ensures ToBusPublicNewUserAsUser(p, req.(roles := roles)) == ToBusPublicNewUserAsUser(p, req)
  {
  }
}

=== FILE: public_user_bus.dfy ===
/**
 * The public-user business service (pbusrbus.Business): account creation and
 * authentication on top of the cache-aside store.
 *
 * bcrypt is passed in as a pair of functions (`Bcrypt`); the fresh UUID, the
 * salt and the clock reading are inputs of `Create`. The handlers are typed
 * against pbusrbus.Business (app/domain/publicapp/route.go:14), while the build
 * (api/services/auth/build/all/all.go:36, 51) hands them a publicuesrbus.Business
 * over the cache-aside store. The model treats the two as one business whose
 * storer is that cache-aside store.
 */
module PublicUserBus {
  import opened Results
  import opened Values
  import opened PublicUserModel
  import opened Trace
  import opened UserCache

  /**
   * bcrypt: `GenerateFromPassword` hashes a password with a salt and may fail;
   * `CompareHashAndPassword` succeeds when the password matches the hash.
   */
  datatype Bcrypt = Bcrypt(generate: (string, Bytes) -> Result<Bytes>, matches: (Bytes, string) -> bool)

  /** The one property of bcrypt this model relies on: a hash matches the password it was made from. */
  ghost predicate Sound(b: Bcrypt)
  {
    forall pw, salt :: b.generate(pw, salt).Ok? ==> b.matches(b.generate(pw, salt).value, pw)
  }

  /**
   * `u` is the record the business layer builds for `nu`: the fields the caller
   * supplies are copied, and the identifier, hash, enabled flag and both dates
   * are the ones the business layer assigns.
   */
  predicate BuiltFrom(u: PublicUser, nu: NewPublicUser, id: UUID, hash: Bytes, now: Time)
  {
    && u.id == id && u.passwordHash == hash && u.enabled
    && u.dateCreated == now && u.dateUpdated == now
    && u.name == nu.name && u.email == nu.email && u.roles == nu.roles && u.department == nu.department
  }

  /**
   * `Business.Create`: hash the password; if that fails, stop before the store.
   * Otherwise build the record and hand it to the store; the record returned is
   * the record stored.
   */
  function Create<S>(storer: Storer<S>, bcrypt: Bcrypt, st: Store<S>, nu: NewPublicUser, id: UUID, salt: Bytes, now: Time)
    : (r: Step<S, Result<PublicUser>>)
    ensures var h := bcrypt.generate(nu.password, salt);
      && |r.trace| > 0 && r.trace[0] == HashPassword(h.Ok?)
      && (h.Err? ==>
            r.result == Err(Wrapped("generatefrompassword", h.error)) && r.store == st && !TouchesStore(r.trace))
      && (h.Ok? ==>
            && |r.trace| > 1 && r.trace[1].StoreCalled? && r.trace[1].call.CreateCall?
            && BuiltFrom(r.trace[1].call.usr, nu, id, h.value, now)
            && r.store == UserCache.Create(storer, st, r.trace[1].call.usr).store
            && r.store.db == storer.create(st.db, r.trace[1].call.usr).db
            && (r.result.Ok? <==> storer.create(st.db, r.trace[1].call.usr).outcome.Pass?)
            && (r.result.Ok? <==> r.trace[1].ok)
            && (r.result.Ok? ==> r.result.value == r.trace[1].call.usr)
            && (r.result.Err? ==>
                  var o := storer.create(st.db, r.trace[1].call.usr).outcome;
                  o.Fail? && r.result.error == Wrapped("create", o.error)))
    ensures r.result.Ok? ==> CachedUnderBothKeys(r.store.cache, r.result.value)
    ensures StoreFirst(r.trace)
  {
    var h := bcrypt.generate(nu.password, salt);
    if h.Err? then
      Step(st, Err(Wrapped("generatefrompassword", h.error)), [HashPassword(false)])
    else
      var usr := PublicUser(id, nu.name, nu.email, nu.roles, h.value, nu.department, true, now, now);
      var c := UserCache.Create(storer, st, usr);
      StoreFirstAppend([HashPassword(true)], c.trace);
      if c.result.Fail? then
        Step(c.store, Err(Wrapped("create", c.result.error)), [HashPassword(true)] + c.trace)
      else
        Step(c.store, Ok(usr), [HashPassword(true)] + c.trace)
  }

  /**
   * `Business.QueryByEmail`: the cache-aside lookup, its answer unchanged and its
   * error wrapped with context.
   */
  function QueryByEmail<S>(storer: Storer<S>, st: Store<S>, email: Address): (r: Step<S, Result<PublicUser>>)
    ensures r.store.db == st.db
    ensures email.address in st.cache ==>
      r.result == Ok(st.cache[email.address]) && r.store == st && !TouchesStore(r.trace)
    ensures email.address !in st.cache ==>
      var q := storer.queryByEmail(st.db, email);
      && (q.Ok? ==> r.result == q && CachedUnderBothKeys(r.store.cache, q.value))
      && (q.Err? ==> r.result == Err(Wrapped("query", q.error)) && r.store == st)
    ensures StoreFirst(r.trace)
  {
    var q := UserCache.QueryByEmail(storer, st, email);
    if q.result.Err? then
      Step(q.store, Err(Wrapped("query", q.result.error)), q.trace)
    else
      q
  }

  /**
   * `Business.Authenticate`: look the user up by email, then compare the hash.
   * A failed lookup is returned, wrapped, without any comparison; a mismatch is
   * `ErrAuthenticationFailure`; success returns exactly the record found.
   */
  function Authenticate<S>(storer: Storer<S>, bcrypt: Bcrypt, st: Store<S>, email: Address, password: string)
    : (r: Step<S, Result<PublicUser>>)
    ensures var q := QueryByEmail(storer, st, email);
      && r.store == q.store
      && (q.result.Err? ==>
            && r.result == Err(Wrapped("query", q.result.error)) && r.trace == q.trace
            && (forall t :: Is(q.result.error, t) ==> Is(r.result.error, t))
            && (forall i | 0 <= i < |r.trace| :: !r.trace[i].ComparePassword?))
      && (q.result.Ok? ==>
            var ok := bcrypt.matches(q.result.value.passwordHash, password);
            && (r.result.Ok? <==> ok)
            && (r.result.Ok? ==> r.result.value == q.result.value)
            && (r.result.Err? ==> Is(r.result.error, AuthenticationFailure))
            && r.trace == q.trace + [ComparePassword(ok)])
    ensures r.result.Ok? ==> bcrypt.matches(r.result.value.passwordHash, password)
    ensures StoreFirst(r.trace)
  {
    var q := QueryByEmail(storer, st, email);
    if q.result.Err? then
      Step(q.store, Err(Wrapped("query", q.result.error)), q.trace)
    else
      var ok := bcrypt.matches(q.result.value.passwordHash, password);
      StoreFirstAppend(q.trace, [ComparePassword(ok)]);
      if !ok then
        Step(q.store, Err(Wrapped("comparehashandpassword", AuthenticationFailure)), q.trace + [ComparePassword(ok)])
      else
        Step(q.store, Ok(q.result.value), q.trace + [ComparePassword(ok)])
  }

  /**
   * A failed lookup reaches the caller with exactly the sentinels it carried:
   * the one "query" wrap neither hides one nor adds one, so `errors.Is(err,
   * ErrAuthenticationFailure)` after a failed lookup is false unless the store
   * itself reported it.
   */
  lemma AuthenticateKeepsLookupSentinels<S>(storer: Storer<S>, bcrypt: Bcrypt, st: Store<S>, email: Address,
                                            password: string, target: Error)
    requires QueryByEmail(storer, st, email).result.Err?
    requires !target.Wrapped?
    ensures Is(Authenticate(storer, bcrypt, st, email, password).result.error, target)
        <==> Is(QueryByEmail(storer, st, email).result.error, target)
  {
    var e := QueryByEmail(storer, st, email).result.error;
    assert ["query"][..0] == [];
    assert WrapAll(["query"], e) == Wrapped("query", e);
    if Is(e, target) {
      IsSurvivesWrapping(["query"], e, target);
    } else {
      WrappingAddsNoSentinel(["query"], e, target);
    }
  }

  /**
   * `Authenticate` with the same work on both failure paths: when the lookup
   * fails, the password is still compared, against `dummy` (a hash of no
   * account), and the outcome is discarded. Results and store are those of
   * `Authenticate`; every call compares exactly once, as its last step.
   */
  function AuthenticateUniform<S>(storer: Storer<S>, bcrypt: Bcrypt, st: Store<S>, email: Address,
                                  password: string, dummy: Bytes): (r: Step<S, Result<PublicUser>>)
    ensures var a := Authenticate(storer, bcrypt, st, email, password);
      r.store == a.store && r.result == a.result
    ensures ComparesOnceAtEnd(r.trace)
    ensures StoreFirst(r.trace)
  {
    var q := QueryByEmail(storer, st, email);
    QueryCallsStoreAndCacheOnly(storer, st, email);
    if q.result.Err? then
      var ok := bcrypt.matches(dummy, password);
      StoreFirstAppend(q.trace, [ComparePassword(ok)]);
      Step(q.store, Err(Wrapped("query", q.result.error)), q.trace + [ComparePassword(ok)])
    else
      Authenticate(storer, bcrypt, st, email, password)
  }

  /**
   * Create, then log in: with a sound bcrypt, the new user authenticates with
   * the password it registered, straight from the cache.
   */
  lemma CreateThenAuthenticate<S>(storer: Storer<S>, bcrypt: Bcrypt, st: Store<S>, nu: NewPublicUser,
                                  id: UUID, salt: Bytes, now: Time, email: Address)
    requires Sound(bcrypt)
    requires Create(storer, bcrypt, st, nu, id, salt, now).result.Ok?
    requires email.address == nu.email.address
    ensures var c := Create(storer, bcrypt, st, nu, id, salt, now);
      var a := Authenticate(storer, bcrypt, c.store, email, nu.password);
      a.result == c.result && a.store == c.store && !TouchesStore(a.trace)
  {
    var c := Create(storer, bcrypt, st, nu, id, salt, now);
    var u := c.result.value;
    var h := bcrypt.generate(nu.password, salt);
    assert u.passwordHash == h.value;
    assert bcrypt.matches(u.passwordHash, nu.password);
    var q := QueryByEmail(storer, c.store, email);
    assert q.result == Ok(u) && !TouchesStore(q.trace);
    var a := Authenticate(storer, bcrypt, c.store, email, nu.password);
    assert a.trace == q.trace + [ComparePassword(true)];
    assert forall i | 0 <= i < |a.trace| :: a.trace[i] == (q.trace + [ComparePassword(true)])[i];
  }

  /** Create, then log in with a password the hash does not match: authentication fails. */
  lemma CreateThenWrongPassword<S>(storer: Storer<S>, bcrypt: Bcrypt, st: Store<S>, nu: NewPublicUser,
                                   id: UUID, salt: Bytes, now: Time, email: Address, password: string)
    requires Create(storer, bcrypt, st, nu, id, salt, now).result.Ok?
    requires email.address == nu.email.address
    requires !bcrypt.matches(bcrypt.generate(nu.password, salt).value, password)
    ensures var c := Create(storer, bcrypt, st, nu, id, salt, now);
      var a := Authenticate(storer, bcrypt, c.store, email, password);
      a.result.Err? && Is(a.result.error, AuthenticationFailure)
  {
  }

  /**
   * The plaintext password reaches the rest of the system only through its hash:
   * two requests that differ only in password, and hash alike, create the same
   * record with the same store calls.
   */
  lemma CreateSeesPasswordOnlyThroughHash<S>(storer: Storer<S>, bcrypt: Bcrypt, st: Store<S>,
                                             nu1: NewPublicUser, nu2: NewPublicUser, id: UUID, salt: Bytes, now: Time)
    requires nu1.(password := nu2.password) == nu2
    requires bcrypt.generate(nu1.password, salt) == bcrypt.generate(nu2.password, salt)
    ensures Create(storer, bcrypt, st, nu1, id, salt, now) == Create(storer, bcrypt, st, nu2, id, salt, now)
  {
  }

  /** A cache hit whose hash matches authenticates the cached user without calling the store. */
  lemma AuthenticateFromCache<S>(storer: Storer<S>, bcrypt: Bcrypt, st: Store<S>, email: Address, password: string)
    requires email.address in st.cache
    requires bcrypt.matches(st.cache[email.address].passwordHash, password)
    ensures var a := Authenticate(storer, bcrypt, st, email, password);
      a.result == Ok(st.cache[email.address]) && a.store == st && !TouchesStore(a.trace)
  {
    var q := QueryByEmail(storer, st, email);
    var a := Authenticate(storer, bcrypt, st, email, password);
    assert a.trace == q.trace + [ComparePassword(true)];
    assert forall i | 0 <= i < |a.trace| :: a.trace[i] == (q.trace + [ComparePassword(true)])[i];
  }

  /**
   * The stale entry left by an update is a stale credential: after a user's
   * email and password change, logging in with the old email and the old
   * password succeeds from the cache and returns the previous version, although
   * the durable store holds only the new one. In the running service this lasts
   * until the old key's cache entry expires.
   */
  lemma StaleLoginAfterUpdate(id: UUID, bcrypt: Bcrypt, password: string)
    requires bcrypt.matches(Before(id).passwordHash, password)
    ensures var storer := OneRowStore();
      var s1 := UserCache.Create(storer, Store(None, map[]), Before(id)).store;
      var s2 := UserCache.Update(storer, s1, After(id)).store;
      var a := Authenticate(storer, bcrypt, s2, Address("", "ada@old.example"), password);
      && s2.db == Some(After(id))
      && a.result == Ok(Before(id)) && !TouchesStore(a.trace)
  {
    StaleReadAfterUpdate(id);
    var storer := OneRowStore();
    var s1 := UserCache.Create(storer, Store(None, map[]), Before(id)).store;
    var s2 := UserCache.Update(storer, s1, After(id)).store;
    AuthenticateFromCache(storer, bcrypt, s2, Address("", "ada@old.example"), password);
  }
}

=== FILE: public_user_db.dfy ===
/**
 * The database row of a public user and its conversions to and from the
 * business record (publicuserdb/model.go).
 *
 * The row keeps strings where the business record keeps parsed values, so
 * reading a row back can fail, and the conversion there and back is partial:
 * the email's display name is not stored, and the department's `Valid` flag is
 * written but not read.
 */
module PublicUserDb {
  import opened Results
  import opened Values
  import opened PublicUserModel

  /** `sql.NullString`: `text` is its `String`, `valid` its `Valid`. */
  datatype NullString = NullString(text: string, valid: bool)

  /** The `publicUser` row. */
  datatype Row = Row(
    id: UUID,
    name: string,
    email: string,
    roles: seq<string>,
    passwordHash: Bytes,
    department: NullString,
    enabled: bool,
    dateCreated: Time,
    dateUpdated: Time)

  /** `toDBUser`: the row stored for a user. */
  function ToDbUser(u: PublicUser): (r: Row)
    ensures r.id == u.id && r.email == u.email.address && r.passwordHash == u.passwordHash && r.enabled == u.enabled
    ensures r.name == u.name.value && r.roles == RoleStrings(u.roles)
    ensures r.department.text == u.department.value && r.department.valid == u.department.valid
    ensures r.dateCreated == u.dateCreated && r.dateUpdated == u.dateUpdated
  {
    Row(u.id, u.name.value, u.email.address, RoleStrings(u.roles), u.passwordHash,
        NullString(u.department.value, u.department.valid), u.enabled, u.dateCreated, u.dateUpdated)
  }

  /**
   * `toBusUser`: parse roles, then name, then department, stopping at the first
   * failure. The email is rebuilt from the bare address, and the department from
   * its text alone.
   */
  function ToBusUser(p: Parsers, row: Row): (r: Result<PublicUser>)
    ensures var roles, name, dept := p.parseRoles(row.roles), p.parseName(row.name), p.parseNullName(row.department.text);
      && (roles.Err? ==> r == Err(Wrapped("parse", roles.error)))
      && (roles.Ok? && name.Err? ==> r == Err(Wrapped("parse name", name.error)))
      && (roles.Ok? && name.Ok? && dept.Err? ==> r == Err(Wrapped("parse department", dept.error)))
      && (r.Ok? <==> roles.Ok? && name.Ok? && dept.Ok?)
      && (r.Ok? ==>
            && r.value.roles == roles.value && r.value.name == name.value && r.value.department == dept.value)
    ensures r.Ok? ==>
      && r.value.id == row.id && r.value.email == Address("", row.email)
      && r.value.passwordHash == row.passwordHash && r.value.enabled == row.enabled
      && r.value.dateCreated == row.dateCreated && r.value.dateUpdated == row.dateUpdated
  {
    var addr := Address("", row.email);
    var roles := p.parseRoles(row.roles);
    if roles.Err? then Err(Wrapped("parse", roles.error))
    else
      var name := p.parseName(row.name);
      if name.Err? then Err(Wrapped("parse name", name.error))
      else
        var dept := p.parseNullName(row.department.text);
        if dept.Err? then Err(Wrapped("parse department", dept.error))
        else
          Ok(PublicUser(row.id, name.value, addr, roles.value, row.passwordHash, dept.value, row.enabled,
                        row.dateCreated, row.dateUpdated))
  }

  /**
   * Storing and reading back keeps the identifier, bare email, hash, flag and
   * dates, whatever the parsers do.
   */
  lemma RoundTripKeepsStoredFields(p: Parsers, u: PublicUser)
    requires ToBusUser(p, ToDbUser(u)).Ok?
    ensures var v := ToBusUser(p, ToDbUser(u)).value;
      && v.id == u.id && v.email.address == u.email.address && v.passwordHash == u.passwordHash
      && v.enabled == u.enabled && v.dateCreated == u.dateCreated && v.dateUpdated == u.dateUpdated
  {
  }

  /**
   * The partial round trip: when the role, name and department parsers invert
   * their `String` functions on `u`'s values, reading back what was stored
   * gives `u` with the email's display name dropped, and nothing else changed.
   */
  lemma RoundTrip(p: Parsers, u: PublicUser)
    requires p.parseRoles(RoleStrings(u.roles)) == Ok(u.roles)
    requires p.parseName(u.name.value) == Ok(u.name)
    requires p.parseNullName(u.department.value) == Ok(u.department)
    ensures ToBusUser(p, ToDbUser(u)) == Ok(u.(email := Address("", u.email.address)))
  {
  }

  /** The round trip is exact only for users without a display name. */
  lemma RoundTripDropsDisplayName(p: Parsers, u: PublicUser)
    requires ToBusUser(p, ToDbUser(u)).Ok?
    ensures ToBusUser(p, ToDbUser(u)).value.email == u.email <==> u.email.name == ""
  {
  }

  /** Reading a row ignores the department's `Valid` flag: only its text is parsed. */
  lemma ReadIgnoresDepartmentValid(p: Parsers, row: Row, valid: bool)
    ensures ToBusUser(p, row.(department := row.department.(valid := valid))) == ToBusUser(p, row)
  {
  }

  /**
   * The other direction: a row whose values the parsers accept and render back
   * unchanged, and whose department flag agrees with the parsed department, is
   * stored again exactly as it was read.
   */
  lemma RowRoundTrip(p: Parsers, row: Row)
    requires ToBusUser(p, row).Ok?
    requires RoleStrings(p.parseRoles(row.roles).value) == row.roles
    requires p.parseName(row.name).value.value == row.name
    requires p.parseNullName(row.department.text).value == NullName(row.department.text, row.department.valid)
    ensures ToDbUser(ToBusUser(p, row).value) == row
  {
  }
}

=== FILE: results.dfy ===
/**
 * Error values and the failure-carrying wrappers shared by every layer.
 *
 * Go reports failure through `error` values that are wrapped with context by
 * `fmt.Errorf("...: %w", err)` and inspected with `errors.Is`. Here an error is a
 * datatype whose `Wrapped` constructor keeps the chain, and `Is` walks it.
 */
module Results {

  /** A value that may be absent: a Go field that may be nil, or the `ok` of a lookup. */
  datatype Option<+T> = None | Some(value: T)

  /**
   * The error values this code creates or inspects. A Go sentinel is compared
   * by identity, so each sentinel is a constructor of its own: the two
   * "email is not unique" sentinels of two packages are distinct values.
   */
  datatype Error =
    | NotFound                            // pbusrbus.ErrNotFound
    | UniqueEmail                         // pbusrbus.ErrUniqueEmail
    | AuthenticationFailure               // pbusrbus.ErrAuthenticationFailure
    | UserbusUniqueEmail                  // userbus.ErrUniqueEmail, another package's sentinel
    | InvalidFields(fields: seq<string>)  // request validation failed on these fields
    | Failure(text: string)               // any other error value
    | Wrapped(context: string, inner: Error)  // fmt.Errorf("context: %w", inner)

  /** A value or the error that prevented it: Go's `(T, error)` pair. */
  datatype Result<+T> = Ok(value: T) | Err(error: Error)

  /** Success or the error of an operation that returns only `error`. */
  datatype Outcome = Pass | Fail(error: Error)

  /** `errors.Is(e, target)`: some error in the wrap chain starting at `e` is `target`. */
  predicate Is(e: Error, target: Error)
  {
    e == target || (e.Wrapped? && Is(e.inner, target))
  }

  /** Wraps `e` once per context, innermost first, as nested `fmt.Errorf` calls do. */
  function WrapAll(contexts: seq<string>, e: Error): Error
    decreases |contexts|
  {
    if contexts == [] then e else Wrapped(contexts[|contexts| - 1], WrapAll(contexts[..|contexts| - 1], e))
  }

  /** Wrapping never hides a sentinel from `errors.Is`, however deep the chain. */
  lemma {:induction false} IsSurvivesWrapping(contexts: seq<string>, e: Error, target: Error)
    requires Is(e, target)
    ensures Is(WrapAll(contexts, e), target)
    decreases |contexts|
  {
    if contexts != [] {
      IsSurvivesWrapping(contexts[..|contexts| - 1], e, target);
    }
  }

  /** Wrapping adds only its own wrapper: a sentinel the chain lacked stays absent. */
  lemma {:induction false} WrappingAddsNoSentinel(contexts: seq<string>, e: Error, target: Error)
    requires !Is(e, target)
    requires !target.Wrapped?
    ensures !Is(WrapAll(contexts, e), target)
    decreases |contexts|
  {
    if contexts != [] {
      WrappingAddsNoSentinel(contexts[..|contexts| - 1], e, target);
    }
  }
}

=== FILE: trace.dfy ===
/**
 * What an operation did, in order: the calls it made into the durable store,
 * the cache and the external services. Every operation of the model returns its
 * trace next to its result, so "the store is written before the cache" and "the
 * store is never called" become statements about a sequence.
 */
module Trace {
  import opened Values
  import opened PublicUserModel

  /** The user cache: a map from cache key (ID string or bare email address) to user. */
  type Cache = map<string, PublicUser>

  /** A call into the durable store (`publicuesrbus.Storer`). */
  datatype StoreCall =
    | CreateCall(usr: PublicUser)
    | UpdateCall(usr: PublicUser)
    | DeleteCall(usr: PublicUser)
    | QueryCall(email: Address)

  datatype Event =
    | StoreCalled(call: StoreCall, ok: bool)
    | CacheGet(key: string)
    | CacheSet(key: string, usr: PublicUser)
    | CacheDelete(key: string)
    | HashPassword(ok: bool)
    | ComparePassword(ok: bool)
    | GenerateToken(kid: string, claims: Claims, ok: bool)
  {
    predicate WritesCache()
    {
      CacheSet? || CacheDelete?
    }
  }

  /** Some event of `t` is a call into the durable store. */
  predicate TouchesStore(t: seq<Event>)
  {
    exists i | 0 <= i < |t| :: t[i].StoreCalled?
  }

  /**
   * The cache-aside ordering rule: every cache write or eviction comes after a
   * durable-store call that succeeded.
   */
  predicate StoreFirst(t: seq<Event>)
  {
    forall j | 0 <= j < |t| && t[j].WritesCache() :: exists i | 0 <= i < j :: t[i].StoreCalled? && t[i].ok
  }

  /** Every event of `t` is a call into the durable store or the cache: no bcrypt, no signer. */
  predicate StoreAndCacheOnly(t: seq<Event>)
  {
    forall i | 0 <= i < |t| :: t[i].StoreCalled? || t[i].CacheGet? || t[i].CacheSet? || t[i].CacheDelete?
  }

  /** `t` compares a password exactly once, as its last event. */
  predicate ComparesOnceAtEnd(t: seq<Event>)
  {
    && |t| > 0 && t[|t| - 1].ComparePassword?
    && forall i | 0 <= i < |t| - 1 :: !t[i].ComparePassword?
  }

  /** The effect of one event on the cache. */
  function Apply(c: Cache, e: Event): Cache
  {
    match e
    case CacheSet(k, u) => c[k := u]
    case CacheDelete(k) => c - {k}
    case _ => c
  }

  /** The cache obtained by performing the cache events of `t`, in order, on `c`. */
  function Replay(c: Cache, t: seq<Event>): Cache
    decreases |t|
  {
    if t == [] then c else Replay(Apply(c, t[0]), t[1..])
  }

  /** Replaying two events is applying the first, then the second. */
  lemma ReplayPair(c: Cache, e1: Event, e2: Event)
    ensures Replay(c, [e1, e2]) == Apply(Apply(c, e1), e2)
  {
    var c1 := Apply(c, e1);
    assert [e1, e2][1..] == [e2];
    assert [e2][1..] == [];
    calc {
      Replay(c, [e1, e2]);
      Replay(c1, [e2]);
      Replay(Apply(c1, e2), []);
    }
  }

  /** Replaying two traces one after the other is replaying their concatenation. */
  lemma {:induction false} ReplayAppend(c: Cache, a: seq<Event>, b: seq<Event>)
    ensures Replay(c, a + b) == Replay(Replay(c, a), b)
    decreases |a|
  {
    if a == [] {
      assert a + b == b;
    } else {
      assert (a + b)[1..] == a[1..] + b;
      ReplayAppend(Apply(c, a[0]), a[1..], b);
    }
  }

  /** The ordering rule survives running one operation after another. */
  lemma StoreFirstAppend(a: seq<Event>, b: seq<Event>)
    requires StoreFirst(a) && StoreFirst(b)
    ensures StoreFirst(a + b)
  {
    var t := a + b;
    forall j | 0 <= j < |t| && t[j].WritesCache()
      ensures exists i | 0 <= i < j :: t[i].StoreCalled? && t[i].ok
    {
      if j < |a| {
        assert a[j] == t[j];
        var i :| 0 <= i < j && a[i].StoreCalled? && a[i].ok;
        assert t[i] == a[i];
      } else {
        assert b[j - |a|] == t[j];
        var i :| 0 <= i < j - |a| && b[i].StoreCalled? && b[i].ok;
        assert t[i + |a|] == b[i];
      }
    }
  }
}

=== FILE: user_cache.dfy ===
/**
 * The cache-aside user store (usercache.Store).
 *
 * The store wraps a durable `Storer` with a cache keyed twice per user: by the
 * ID string and by the bare email address. Writes go to the durable store first
 * and touch the cache only when the store reports success; reads try the cache
 * by email and fall through to the store on a miss, filling the cache. The cache
 * library's capacity, sharding, TTL expiry and eviction are not modelled: the
 * cache is a plain map, changed only by this code.
 */
module UserCache {
  import opened Results
  import opened Values
  import opened PublicUserModel
  import opened Trace

  /** What a durable write returns: the store's state afterwards and whether it succeeded. */
  datatype Written<S> = Written(db: S, outcome: Outcome)

  /**
   * `publicuesrbus.Storer`, the durable store, over an abstract state `S`.
   * Any of its operations may fail; a lookup never changes the state.
   */
  datatype Storer<!S> = Storer(
    create: (S, PublicUser) -> Written<S>,
    update: (S, PublicUser) -> Written<S>,
    delete: (S, PublicUser) -> Written<S>,
    queryByEmail: (S, Address) -> Result<PublicUser>)

  /** The state of the cache-aside store: the durable state and the cache. */
  datatype Store<S> = Store(db: S, cache: Cache)

  /** One operation's effect: the new state, its result, and what it called, in order. */
  datatype Step<S, T> = Step(store: Store<S>, result: T, trace: seq<Event>)

  /** The ID cache key, `ID.String()`. */
  function IdKey(u: PublicUser): string
  {
    UuidString(u.id)
  }

  /** The email cache key, `Email.Address`: the display name takes no part. */
  function EmailKey(u: PublicUser): string
  {
    u.email.address
  }

  /** `u` is readable under both of its keys. */
  predicate CachedUnderBothKeys(c: Cache, u: PublicUser)
  {
    IdKey(u) in c && c[IdKey(u)] == u && EmailKey(u) in c && c[EmailKey(u)] == u
  }

  /** Every key other than the two keys of `u` is as it was. */
  ghost predicate OthersUnchanged(c: Cache, c': Cache, u: PublicUser)
  {
    forall k | k != IdKey(u) && k != EmailKey(u) :: (k in c <==> k in c') && (k in c ==> c[k] == c'[k])
  }

  /** The cache events of `writeCache`: set the ID key, then the email key. */
  function WriteEvents(u: PublicUser): seq<Event>
  {
    [CacheSet(IdKey(u), u), CacheSet(EmailKey(u), u)]
  }

  /** The cache events of `deleteCache`: evict the ID key, then the email key. */
  function DeleteEvents(u: PublicUser): seq<Event>
  {
    [CacheDelete(IdKey(u)), CacheDelete(EmailKey(u))]
  }

  /** `readCache`: the user cached under `key`, if any. */
  function ReadCache(c: Cache, key: string): (r: Option<PublicUser>)
    ensures r.Some? <==> key in c
    ensures r.Some? ==> r.value == c[key]
  {
    if key in c then Some(c[key]) else None
  }

  /** `writeCache`: `u` under both of its keys and nothing else changed. */
  function WriteCache(c: Cache, u: PublicUser): (r: Cache)
    ensures CachedUnderBothKeys(r, u)
    ensures OthersUnchanged(c, r, u)
    ensures r == Replay(c, WriteEvents(u))
  {
    ReplayPair(c, CacheSet(IdKey(u), u), CacheSet(EmailKey(u), u));
    c[IdKey(u) := u][EmailKey(u) := u]
  }

  /** `deleteCache`: neither key of `u` remains and nothing else changed. */
  function DeleteCache(c: Cache, u: PublicUser): (r: Cache)
    ensures IdKey(u) !in r && EmailKey(u) !in r
    ensures OthersUnchanged(c, r, u)
    ensures r == Replay(c, DeleteEvents(u))
  {
    ReplayPair(c, CacheDelete(IdKey(u)), CacheDelete(EmailKey(u)));
    c - {IdKey(u), EmailKey(u)}
  }

  /** `Store.Create`: the durable store first; the cache only on its success. */
  function Create<S>(storer: Storer<S>, st: Store<S>, usr: PublicUser): (r: Step<S, Outcome>)
    ensures r.store.db == storer.create(st.db, usr).db
    ensures r.result == storer.create(st.db, usr).outcome
    ensures |r.trace| > 0 && r.trace[0] == StoreCalled(CreateCall(usr), r.result.Pass?)
    ensures r.result.Fail? ==> r.store.cache == st.cache && |r.trace| == 1
    ensures r.result.Pass? ==> CachedUnderBothKeys(r.store.cache, usr) && OthersUnchanged(st.cache, r.store.cache, usr)
    ensures StoreFirst(r.trace)
    ensures Replay(st.cache, r.trace) == r.store.cache
  {
    var w := storer.create(st.db, usr);
    if w.outcome.Fail? then
      Step(Store(w.db, st.cache), w.outcome, [StoreCalled(CreateCall(usr), false)])
    else
      var t := [StoreCalled(CreateCall(usr), true)] + WriteEvents(usr);
      assert Replay(st.cache, t) == Replay(st.cache, WriteEvents(usr));
      Step(Store(w.db, WriteCache(st.cache, usr)), Pass, t)
  }

  /**
   * `Store.Update`: the same order as `Create`. It writes the new record's two
   * keys and evicts nothing, so a key the record no longer has (its old email)
   * keeps whatever it held.
   */
  function Update<S>(storer: Storer<S>, st: Store<S>, usr: PublicUser): (r: Step<S, Outcome>)
    ensures r.store.db == storer.update(st.db, usr).db
    ensures r.result == storer.update(st.db, usr).outcome
    ensures |r.trace| > 0 && r.trace[0] == StoreCalled(UpdateCall(usr), r.result.Pass?)
    ensures r.result.Fail? ==> r.store.cache == st.cache && |r.trace| == 1
    ensures r.result.Pass? ==> CachedUnderBothKeys(r.store.cache, usr) && OthersUnchanged(st.cache, r.store.cache, usr)
    ensures StoreFirst(r.trace)
    ensures Replay(st.cache, r.trace) == r.store.cache
  {
    var w := storer.update(st.db, usr);
    if w.outcome.Fail? then
      Step(Store(w.db, st.cache), w.outcome, [StoreCalled(UpdateCall(usr), false)])
    else
      var t := [StoreCalled(UpdateCall(usr), true)] + WriteEvents(usr);
      assert Replay(st.cache, t) == Replay(st.cache, WriteEvents(usr));
      Step(Store(w.db, WriteCache(st.cache, usr)), Pass, t)
  }

  /** `Store.Delete`: the durable store first; both keys are evicted only on its success. */
  function Delete<S>(storer: Storer<S>, st: Store<S>, usr: PublicUser): (r: Step<S, Outcome>)
    ensures r.store.db == storer.delete(st.db, usr).db
    ensures r.result == storer.delete(st.db, usr).outcome
    ensures |r.trace| > 0 && r.trace[0] == StoreCalled(DeleteCall(usr), r.result.Pass?)
    ensures r.result.Fail? ==> r.store.cache == st.cache && |r.trace| == 1
    ensures r.result.Pass? ==> IdKey(usr) !in r.store.cache && EmailKey(usr) !in r.store.cache
    ensures r.result.Pass? ==> OthersUnchanged(st.cache, r.store.cache, usr)
    ensures StoreFirst(r.trace)
    ensures Replay(st.cache, r.trace) == r.store.cache
  {
    var w := storer.delete(st.db, usr);
    if w.outcome.Fail? then
      Step(Store(w.db, st.cache), w.outcome, [StoreCalled(DeleteCall(usr), false)])
    else
      var t := [StoreCalled(DeleteCall(usr), true)] + DeleteEvents(usr);
      assert Replay(st.cache, t) == Replay(st.cache, DeleteEvents(usr));
      Step(Store(w.db, DeleteCache(st.cache, usr)), Pass, t)
  }

  /**
   * `Store.QueryByEmail`: a cache hit under `email.address` is returned without
   * calling the store; a miss asks the store with the full address and, on
   * success, caches the answer under the answer's own two keys.
   */
  function QueryByEmail<S>(storer: Storer<S>, st: Store<S>, email: Address): (r: Step<S, Result<PublicUser>>)
    ensures r.store.db == st.db
    ensures |r.trace| > 0 && r.trace[0] == CacheGet(email.address)
    ensures email.address in st.cache ==>
      r.result == Ok(st.cache[email.address]) && r.store == st && !TouchesStore(r.trace)
    ensures email.address !in st.cache ==>
      var q := storer.queryByEmail(st.db, email);
      && r.result == q
      && |r.trace| > 1 && r.trace[1] == StoreCalled(QueryCall(email), q.Ok?)
      && (q.Err? ==> r.store.cache == st.cache)
      && (q.Ok? ==> CachedUnderBothKeys(r.store.cache, q.value) && OthersUnchanged(st.cache, r.store.cache, q.value))
    ensures StoreFirst(r.trace)
    ensures Replay(st.cache, r.trace) == r.store.cache
  {
    var cached := ReadCache(st.cache, email.address);
    if cached.Some? then
      Step(st, Ok(cached.value), [CacheGet(email.address)])
    else
      var q := storer.queryByEmail(st.db, email);
      if q.Err? then
        ReplayPair(st.cache, CacheGet(email.address), StoreCalled(QueryCall(email), false));
        Step(st, q, [CacheGet(email.address), StoreCalled(QueryCall(email), false)])
      else
        var t := [CacheGet(email.address), StoreCalled(QueryCall(email), true)] + WriteEvents(q.value);
        assert Replay(st.cache, t) == Replay(st.cache, WriteEvents(q.value));
        Step(Store(st.db, WriteCache(st.cache, q.value)), q, t)
  }

  /** A lookup calls only the store and the cache. */
  lemma QueryCallsStoreAndCacheOnly<S>(storer: Storer<S>, st: Store<S>, email: Address)
    ensures StoreAndCacheOnly(QueryByEmail(storer, st, email).trace)
  {
  }

  // ---------------------------------------------------------------------------
  // The two-key rule, and which operations keep it.

  /**
   * The two-key rule: every entry sits under one of its own record's keys and
   * that record is readable under both keys, so no user is readable under one
   * key while the other is absent or holds something else.
   */
  ghost predicate Coherent(c: Cache)
  {
    forall k | k in c :: (k == IdKey(c[k]) || k == EmailKey(c[k])) && CachedUnderBothKeys(c, c[k])
  }

  /** The keys of `u` are free or already hold `u`. */
  ghost predicate Compatible(c: Cache, u: PublicUser)
  {
    forall k | k in c && (k == IdKey(u) || k == EmailKey(u)) :: c[k] == u
  }

  /**
   * The keys of `u` are free or hold some version of the same user: no other
   * user is cached under `u`'s email (the cache's view of the unique-email rule).
   */
  ghost predicate KeysFree(c: Cache, u: PublicUser)
  {
    forall k | k in c && (k == IdKey(u) || k == EmailKey(u)) :: c[k].id == u.id
  }

  /** Every cached record of `u`'s user is `u` itself. */
  ghost predicate NoStaleVersion(c: Cache, u: PublicUser)
  {
    forall k | k in c && c[k].id == u.id :: c[k] == u
  }

  /** Writing a record whose keys are free or its own keeps the two-key rule. */
  lemma WriteCacheKeepsCoherent(c: Cache, u: PublicUser)
    requires Coherent(c) && Compatible(c, u)
    ensures Coherent(WriteCache(c, u))
  {
    var r := WriteCache(c, u);
    forall k | k in r && k != IdKey(u) && k != EmailKey(u)
      ensures (k == IdKey(r[k]) || k == EmailKey(r[k])) && CachedUnderBothKeys(r, r[k])
    {
      var w := c[k];
      assert r[k] == w;
      assert CachedUnderBothKeys(c, w);
      if w == u {
        assert false;
      }
      assert IdKey(w) != IdKey(u) && IdKey(w) != EmailKey(u);
      assert EmailKey(w) != IdKey(u) && EmailKey(w) != EmailKey(u);
    }
  }

  /** Evicting both keys of a record cached as itself keeps the two-key rule. */
  lemma DeleteCacheKeepsCoherent(c: Cache, u: PublicUser)
    requires Coherent(c) && Compatible(c, u)
    ensures Coherent(DeleteCache(c, u))
  {
    var r := DeleteCache(c, u);
    forall k | k in r
      ensures (k == IdKey(r[k]) || k == EmailKey(r[k])) && CachedUnderBothKeys(r, r[k])
    {
      var w := c[k];
      assert CachedUnderBothKeys(c, w);
      if w == u {
        assert false;
      }
      assert IdKey(w) != IdKey(u) && IdKey(w) != EmailKey(u);
      assert EmailKey(w) != IdKey(u) && EmailKey(w) != EmailKey(u);
    }
  }

  /** A successful `Create` of a record whose keys are free keeps the two-key rule. */
  lemma CreateKeepsCoherent<S>(storer: Storer<S>, st: Store<S>, usr: PublicUser)
    requires Coherent(st.cache) && Compatible(st.cache, usr)
    ensures Coherent(Create(storer, st, usr).store.cache)
  {
    if Create(storer, st, usr).result.Pass? {
      WriteCacheKeepsCoherent(st.cache, usr);
    }
  }

  /** A `Delete` of the record as cached keeps the two-key rule, whatever the store says. */
  lemma DeleteKeepsCoherent<S>(storer: Storer<S>, st: Store<S>, usr: PublicUser)
    requires Coherent(st.cache) && Compatible(st.cache, usr)
    ensures Coherent(Delete(storer, st, usr).store.cache)
  {
    if Delete(storer, st, usr).result.Pass? {
      DeleteCacheKeepsCoherent(st.cache, usr);
    }
  }

  /**
   * A lookup keeps the two-key rule when the record the store answers with is
   * compatible with the cache. A cache hit in a coherent cache returns a record
   * whose email is the one asked for (an ID key never contains '@').
   */
  lemma QueryKeepsCoherent<S>(storer: Storer<S>, st: Store<S>, email: Address)
    requires Coherent(st.cache)
    requires storer.queryByEmail(st.db, email).Ok? ==> Compatible(st.cache, storer.queryByEmail(st.db, email).value)
    ensures Coherent(QueryByEmail(storer, st, email).store.cache)
    ensures email.address in st.cache && '@' in email.address ==>
      QueryByEmail(storer, st, email).result.value.email.address == email.address
  {
    if email.address in st.cache {
      var w := st.cache[email.address];
      assert email.address == IdKey(w) || email.address == EmailKey(w);
    } else if storer.queryByEmail(st.db, email).Ok? {
      WriteCacheKeepsCoherent(st.cache, storer.queryByEmail(st.db, email).value);
    }
  }

  // ---------------------------------------------------------------------------
  // Reads after writes.

  /** Write-then-read: right after a successful `Create`, a lookup by its email is a cache hit returning it. */
  lemma CreateThenQuery<S>(storer: Storer<S>, st: Store<S>, usr: PublicUser, email: Address)
    requires Create(storer, st, usr).result.Pass?
    requires email.address == usr.email.address
    ensures var s := Create(storer, st, usr).store;
      var q := QueryByEmail(storer, s, email);
      q.result == Ok(usr) && q.store == s && !TouchesStore(q.trace)
  {
  }

  /** Write-then-read for `Update`: the new record, never an older one, is what the new email returns. */
  lemma UpdateThenQuery<S>(storer: Storer<S>, st: Store<S>, usr: PublicUser, email: Address)
    requires Update(storer, st, usr).result.Pass?
    requires email.address == usr.email.address
    ensures var s := Update(storer, st, usr).store;
      var q := QueryByEmail(storer, s, email);
      q.result == Ok(usr) && q.store == s && !TouchesStore(q.trace)
  {
  }

  /** Delete-then-read: after a successful `Delete` a lookup by its email is answered by the store alone. */
  lemma DeleteThenQuery<S>(storer: Storer<S>, st: Store<S>, usr: PublicUser, email: Address)
    requires Delete(storer, st, usr).result.Pass?
    requires email.address == usr.email.address
    ensures var s := Delete(storer, st, usr).store;
      var q := QueryByEmail(storer, s, email);
      q.result == storer.queryByEmail(s.db, email) && TouchesStore(q.trace)
  {
    var s := Delete(storer, st, usr).store;
    var q := QueryByEmail(storer, s, email);
    assert q.trace[1].StoreCalled?;
  }

  /**
   * A second lookup of the same email returns the first answer without calling
   * the store, provided the first was a hit or the store answered with a record
   * whose email is the one asked for.
   */
  lemma QueryTwice<S>(storer: Storer<S>, st: Store<S>, email: Address)
    requires QueryByEmail(storer, st, email).result.Ok?
    requires email.address !in st.cache ==> storer.queryByEmail(st.db, email).value.email.address == email.address
    ensures var first := QueryByEmail(storer, st, email);
      var second := QueryByEmail(storer, first.store, email);
      second.result == first.result && second.store == first.store && !TouchesStore(second.trace)
  {
  }

  /**
   * The fill is keyed by the answer's own email, not by the key asked for: when
   * the store answers with a record whose email differs from the one asked for
   * (a case-insensitive match, say), that key stays uncached and every later
   * lookup of it calls the store again.
   */
  lemma QueryFillUsesAnswerKeys<S>(storer: Storer<S>, st: Store<S>, email: Address)
    requires email.address !in st.cache
    requires storer.queryByEmail(st.db, email).Ok?
    requires storer.queryByEmail(st.db, email).value.email.address != email.address
    ensures var first := QueryByEmail(storer, st, email);
      var second := QueryByEmail(storer, first.store, email);
      email.address != IdKey(storer.queryByEmail(st.db, email).value) ==> TouchesStore(second.trace)
  {
    var u := storer.queryByEmail(st.db, email).value;
    var first := QueryByEmail(storer, st, email);
    if email.address != IdKey(u) {
      assert email.address !in first.store.cache;
      assert QueryByEmail(storer, first.store, email).trace[1].StoreCalled?;
    }
  }

  /** The lookup key is the bare address: two addresses differing only in display name read the same entry. */
  lemma LookupIgnoresDisplayName<S>(storer: Storer<S>, st: Store<S>, a: Address, b: Address)
    requires a.address == b.address
    requires a.address in st.cache
    ensures QueryByEmail(storer, st, a) == QueryByEmail(storer, st, b)
  {
  }

  // ---------------------------------------------------------------------------
  // `Update` and the old email key.

  /** A durable store holding one row, accepting every write; used to exhibit the stale read. */
  function OneRowStore(): Storer<Option<PublicUser>>
  {
    Storer(
      (db: Option<PublicUser>, u: PublicUser) => Written(Some(u), Pass),
      (db: Option<PublicUser>, u: PublicUser) => Written(Some(u), Pass),
      (db: Option<PublicUser>, u: PublicUser) => Written(None, Pass),
      (db: Option<PublicUser>, e: Address) =>
        if db.Some? && db.value.email.address == e.address then Ok(db.value) else Err(NotFound))
  }

  /** A user, before changing email and password. */
  function Before(id: UUID): PublicUser
  {
    PublicUser(id, Name("Ada"), Address("", "ada@old.example"), [Role("USER")], [1], NullName("", false), true, 0, 0)
  }

  /** The same user after the change. */
  function After(id: UUID): PublicUser
  {
    Before(id).(email := Address("", "ada@new.example"), passwordHash := [2], dateUpdated := 60)
  }

  /**
   * As written, `Update` leaves the old email key holding the previous version:
   * after `Create(Before)` and `Update(After)` succeed, the durable store has no
   * user with the old email, yet a lookup of the old email is a cache hit that
   * returns `Before`, with its old password hash, and the cache breaks the
   * two-key rule although it kept it before the update.
   */
  lemma StaleReadAfterUpdate(id: UUID)
    ensures var storer := OneRowStore();
      var s1 := Create(storer, Store(None, map[]), Before(id)).store;
      var s2 := Update(storer, s1, After(id)).store;
      var oldEmail := Address("", "ada@old.example");
      && Coherent(s1.cache) && KeysFree(s1.cache, After(id))
      && storer.queryByEmail(s2.db, oldEmail) == Err(NotFound)
      && QueryByEmail(storer, s2, oldEmail).result == Ok(Before(id))
      && oldEmail.address in s2.cache && s2.cache[oldEmail.address] == Before(id)
      && s2.db == Some(After(id)) && Before(id) != After(id)
      && !Coherent(s2.cache)
  {
    var storer := OneRowStore();
    var before, after := Before(id), After(id);
    var oldKey, newKey := "ada@old.example", "ada@new.example";
    assert oldKey != newKey by {
      assert oldKey[4] == 'o' && newKey[4] == 'n';
    }
    var idKey := IdKey(before);
    assert IdKey(after) == idKey;
    assert '@' !in idKey;
    assert oldKey[3] == '@' && newKey[3] == '@';
    assert idKey != oldKey && idKey != newKey;
    var r1 := Create(storer, Store(None, map[]), before);
    assert r1.result.Pass?;
    var s1 := r1.store;
    WriteCacheKeepsCoherent(map[], before);
    assert CachedUnderBothKeys(s1.cache, before) && newKey !in s1.cache;
    var r2 := Update(storer, s1, after);
    assert r2.result.Pass?;
    var s2 := r2.store;
    assert s2.db == Some(after);
    assert s2.cache[idKey] == after && s2.cache[oldKey] == before;
    assert before.passwordHash != after.passwordHash;
    assert !CachedUnderBothKeys(s2.cache, s2.cache[oldKey]);
  }

  /** The cache with the previous version's email key evicted, if the ID key held a version with another email. */
  function EvictPrior(c: Cache, u: PublicUser): (r: Cache)
    ensures r.Keys <= c.Keys
    ensures forall k | k in r :: r[k] == c[k]
  {
    if IdKey(u) in c && EmailKey(c[IdKey(u)]) != EmailKey(u) then c - {EmailKey(c[IdKey(u)])} else c
  }

  /** In a coherent cache, no version of `u`'s user survives the eviction except under `u`'s own keys. */
  lemma EvictPriorLeavesNoOtherVersion(c: Cache, u: PublicUser, k: string)
    requires Coherent(c) && KeysFree(c, u)
    requires k in EvictPrior(c, u) && k != IdKey(u) && k != EmailKey(u)
    ensures c[k].id != u.id
  {
    var w := c[k];
    assert (k == IdKey(w) || k == EmailKey(w)) && CachedUnderBothKeys(c, w);
    if w.id == u.id {
      assert false;
    }
  }

  /** The keys of another user's entry are neither `u`'s keys nor evicted. */
  lemma EvictPriorKeepsOthers(c: Cache, u: PublicUser, w: PublicUser)
    requires Coherent(c) && KeysFree(c, u)
    requires CachedUnderBothKeys(c, w) && w.id != u.id
    ensures IdKey(w) != IdKey(u) && IdKey(w) != EmailKey(u)
    ensures EmailKey(w) != IdKey(u) && EmailKey(w) != EmailKey(u)
    ensures CachedUnderBothKeys(EvictPrior(c, u), w)
  {
    if IdKey(u) in c {
      var v := c[IdKey(u)];
      assert v.id == u.id;
      assert CachedUnderBothKeys(c, v);
    }
  }

  /** Evicting the previous version's email key, then writing, keeps the two-key rule and leaves no stale version. */
  lemma EvictPriorKeepsCoherent(c: Cache, u: PublicUser)
    requires Coherent(c) && KeysFree(c, u)
    ensures Coherent(WriteCache(EvictPrior(c, u), u))
    ensures NoStaleVersion(WriteCache(EvictPrior(c, u), u), u)
  {
    var c1 := EvictPrior(c, u);
    var r := WriteCache(c1, u);
    forall k | k in r && k != IdKey(u) && k != EmailKey(u)
      ensures r[k].id != u.id
      ensures (k == IdKey(r[k]) || k == EmailKey(r[k])) && CachedUnderBothKeys(r, r[k])
    {
      var w := c[k];
      assert k in c1 && r[k] == w;
      assert (k == IdKey(w) || k == EmailKey(w)) && CachedUnderBothKeys(c, w);
      EvictPriorLeavesNoOtherVersion(c, u, k);
      EvictPriorKeepsOthers(c, u, w);
    }
  }

  /** The eviction `UpdateEvicting` makes: the prior version's email key, when it differs. */
  function EvictEvents(c: Cache, usr: PublicUser): (r: seq<Event>)
    ensures |r| <= 1
    ensures Replay(c, r) == EvictPrior(c, usr)
  {
    var prior := ReadCache(c, IdKey(usr));
    if prior.Some? && EmailKey(prior.value) != EmailKey(usr) then
      var r := [CacheDelete(EmailKey(prior.value))];
      assert r[1..] == [];
      r
    else []
  }

  /** The cache events of a successful `UpdateEvicting` rebuild its cache. */
  lemma UpdateEvictingReplay(c: Cache, usr: PublicUser)
    ensures Replay(c, [StoreCalled(UpdateCall(usr), true), CacheGet(IdKey(usr))] + EvictEvents(c, usr) + WriteEvents(usr))
      == WriteCache(EvictPrior(c, usr), usr)
  {
    var head := [StoreCalled(UpdateCall(usr), true), CacheGet(IdKey(usr))];
    var evict := EvictEvents(c, usr);
    assert head + evict + WriteEvents(usr) == head + (evict + WriteEvents(usr));
    ReplayPair(c, head[0], head[1]);
    ReplayAppend(c, head, evict + WriteEvents(usr));
    ReplayAppend(c, evict, WriteEvents(usr));
    assert WriteCache(EvictPrior(c, usr), usr) == Replay(EvictPrior(c, usr), WriteEvents(usr));
  }

  /**
   * `Update` as the two-key rule needs it: after the durable update succeeds, the
   * email key of the version cached under the ID key is evicted before both new
   * keys are written.
   */
  function UpdateEvicting<S>(storer: Storer<S>, st: Store<S>, usr: PublicUser): (r: Step<S, Outcome>)
    ensures r.store.db == storer.update(st.db, usr).db
    ensures r.result == storer.update(st.db, usr).outcome
    ensures |r.trace| > 0 && r.trace[0] == StoreCalled(UpdateCall(usr), r.result.Pass?)
    ensures r.result.Fail? ==> r.store.cache == st.cache
    ensures r.result.Pass? ==> CachedUnderBothKeys(r.store.cache, usr)
    ensures r.result.Pass? && Coherent(st.cache) && KeysFree(st.cache, usr) ==>
      Coherent(r.store.cache) && NoStaleVersion(r.store.cache, usr)
    ensures StoreFirst(r.trace)
    ensures Replay(st.cache, r.trace) == r.store.cache
  {
    var w := storer.update(st.db, usr);
    if w.outcome.Fail? then
      Step(Store(w.db, st.cache), w.outcome, [StoreCalled(UpdateCall(usr), false)])
    else
      var c := EvictPrior(st.cache, usr);
      var t := [StoreCalled(UpdateCall(usr), true), CacheGet(IdKey(usr))] + EvictEvents(st.cache, usr) + WriteEvents(usr);
      UpdateEvictingReplay(st.cache, usr);
      assert Coherent(st.cache) && KeysFree(st.cache, usr) ==>
        Coherent(WriteCache(c, usr)) && NoStaleVersion(WriteCache(c, usr), usr) by {
        if Coherent(st.cache) && KeysFree(st.cache, usr) {
          EvictPriorKeepsCoherent(st.cache, usr);
        }
      }
      Step(Store(w.db, WriteCache(c, usr)), Pass, t)
  }

  /**
   * When the email does not change, `Update` as written and `UpdateEvicting`
   * leave the same cache, and both keep the two-key rule: the stale read needs
   * an email change.
   */
  lemma UpdateKeepsCoherentWhenEmailKept<S>(storer: Storer<S>, st: Store<S>, usr: PublicUser)
    requires Coherent(st.cache) && KeysFree(st.cache, usr)
    requires IdKey(usr) in st.cache ==> EmailKey(st.cache[IdKey(usr)]) == EmailKey(usr)
    ensures Update(storer, st, usr).store == UpdateEvicting(storer, st, usr).store
    ensures Coherent(Update(storer, st, usr).store.cache)
  {
    assert EvictPrior(st.cache, usr) == st.cache;
    EvictPriorKeepsCoherent(st.cache, usr);
  }
}

=== FILE: user_model.dfy ===
/**
 * The public-user records of the business layer (publicuesrbus/model.go).
 *
 * The shapes carry the design rules: a stored `PublicUser` holds only the
 * password hash, never the plaintext; a `NewPublicUser` has no identifier, hash,
 * enabled flag or dates, since the business layer assigns those; the department
 * is a nullable name in both; and every `UpdatePublicUser` field except `roles`
 * is optional.
 */
module PublicUserModel {
  import opened Results
  import opened Values

  /** A stored public user. */
  datatype PublicUser = PublicUser(
    id: UUID,
    name: Name,
    email: Address,
    roles: seq<Role>,
    passwordHash: Bytes,
    department: NullName,
    enabled: bool,
    dateCreated: Time,
    dateUpdated: Time)

  /** What a caller supplies to create a user. */
  datatype NewPublicUser = NewPublicUser(
    name: Name,
    email: Address,
    roles: seq<Role>,
    department: NullName,
    password: string)

  /** A partial update; `None` is a nil field, "leave unchanged". */
  datatype UpdatePublicUser = UpdatePublicUser(
    name: Option<Name>,
    email: Option<Address>,
    roles: seq<Role>,
    department: Option<NullName>,
    password: Option<string>,
    enabled: Option<bool>)
}

=== FILE: values.dfy ===
/**
 * Value types the identity core borrows from other packages: identifiers,
 * mail addresses, names, roles, timestamps, JWT claims, and the parsers that
 * build them from strings. The parsers live in packages outside this model,
 * so they are passed in as functions (`Parsers`) instead of being defined.
 */
module Values {
  import opened Results

  newtype byte = x: int | 0 <= x < 256

  type Bytes = seq<byte>

  /** A point in time, in whole seconds since the Unix epoch. */
  type Time = int

  /** A UUID is sixteen bytes (`uuid.UUID` is `[16]byte`). */
  type UUID = b: Bytes | |b| == 16 witness [0, 0, 0, 0, 0, 0, 0, 0, 0, 0, 0, 0, 0, 0, 0, 0]

  predicate IsHexDigit(c: char)
  {
    '0' <= c <= '9' || 'a' <= c <= 'f'
  }

  /** The lower-case hexadecimal digit for a nibble. */
  function HexDigit(n: int): (c: char)
    requires 0 <= n < 16
    ensures IsHexDigit(c)
    ensures n < 10 <==> c <= '9'
  {
    if n < 10 then ('0' as int + n) as char else ('a' as int + n - 10) as char
  }

  /** Two lower-case hex digits per byte, most significant nibble first. */
  function Hex(bs: Bytes): (s: string)
    ensures |s| == 2 * |bs|
    ensures forall i | 0 <= i < |s| :: IsHexDigit(s[i])
    decreases |bs|
  {
    if bs == [] then [] else [HexDigit(bs[0] as int / 16), HexDigit(bs[0] as int % 16)] + Hex(bs[1..])
  }

  /**
   * `uuid.UUID.String()`: the 8-4-4-4-12 hexadecimal form of section 4 of
   * RFC 9562 (formerly RFC 4122 section 3). It is the ID cache key.
   */
  function UuidString(u: UUID): (s: string)
    ensures |s| == 36
    ensures forall i | 0 <= i < |s| :: s[i] == '-' <==> i == 8 || i == 13 || i == 18 || i == 23
    ensures '@' !in s
  {
    Hex(u[..4]) + "-" + Hex(u[4..6]) + "-" + Hex(u[6..8]) + "-" + Hex(u[8..10]) + "-" + Hex(u[10..])
  }

  lemma HexDigitInjective(m: int, n: int)
    requires 0 <= m < 16 && 0 <= n < 16
    requires HexDigit(m) == HexDigit(n)
    ensures m == n
  {
  }

  /** Equal hex renderings of equally long byte strings come from equal bytes. */
  lemma {:induction false} HexInjective(x: Bytes, y: Bytes)
    requires |x| == |y|
    requires Hex(x) == Hex(y)
    ensures x == y
    decreases |x|
  {
    if x != [] {
      var hx, hy := Hex(x), Hex(y);
      assert hx[0] == HexDigit(x[0] as int / 16) && hy[0] == HexDigit(y[0] as int / 16);
      assert hx[1] == HexDigit(x[0] as int % 16) && hy[1] == HexDigit(y[0] as int % 16);
      HexDigitInjective(x[0] as int / 16, y[0] as int / 16);
      HexDigitInjective(x[0] as int % 16, y[0] as int % 16);
      assert Hex(x[1..]) == hx[2..] == hy[2..] == Hex(y[1..]);
      HexInjective(x[1..], y[1..]);
      assert x == [x[0]] + x[1..];
      assert y == [y[0]] + y[1..];
    }
  }

  /** Distinct identifiers have distinct ID cache keys. */
  lemma UuidStringInjective(a: UUID, b: UUID)
    requires UuidString(a) == UuidString(b)
    ensures a == b
  {
    var s, t := UuidString(a), UuidString(b);
    assert s[0..8] == Hex(a[..4]) && t[0..8] == Hex(b[..4]);
    assert s[9..13] == Hex(a[4..6]) && t[9..13] == Hex(b[4..6]);
    assert s[14..18] == Hex(a[6..8]) && t[14..18] == Hex(b[6..8]);
    assert s[19..23] == Hex(a[8..10]) && t[19..23] == Hex(b[8..10]);
    assert s[24..] == Hex(a[10..]) && t[24..] == Hex(b[10..]);
    HexInjective(a[..4], b[..4]);
    HexInjective(a[4..6], b[4..6]);
    HexInjective(a[6..8], b[6..8]);
    HexInjective(a[8..10], b[8..10]);
    HexInjective(a[10..], b[10..]);
    assert a == a[..4] + a[4..6] + a[6..8] + a[8..10] + a[10..];
    assert b == b[..4] + b[4..6] + b[6..8] + b[8..10] + b[10..];
  }

  /** `mail.Address`: an optional display name and the bare address. */
  datatype Address = Address(name: string, address: string)

  /** `name.Name`; its `String()` is `value`. */
  datatype Name = Name(value: string)

  /**
   * `name.Null`, a name that may be absent; `Valid()` is `valid`. The `name`
   * package is not part of this model: its `String()` is taken to be `value`,
   * whether or not the name is valid.
   */
  datatype NullName = NullName(value: string, valid: bool)

  /** `role.Role`; its `String()` is `name`. */
  datatype Role = Role(name: string)

  /** `role.ParseToString`: the string of every role, in order. */
  function RoleStrings(roles: seq<Role>): (r: seq<string>)
    ensures |r| == |roles|
    ensures forall i | 0 <= i < |roles| :: r[i] == roles[i].name
  {
    seq(|roles|, i requires 0 <= i < |roles| => roles[i].name)
  }

  /**
   * The string parsers of packages outside this model, each of which may fail:
   * `role.ParseMany`, `mail.ParseAddress` (section 3.4 of RFC 5322),
   * `name.Parse` and `name.ParseNull`.
   */
  datatype Parsers = Parsers(
    parseRoles: seq<string> -> Result<seq<Role>>,
    parseAddress: string -> Result<Address>,
    parseName: string -> Result<Name>,
    parseNullName: string -> Result<NullName>)

  /**
   * `auth.Claims`: the JWT registered claims of section 4.1 of RFC 7519 that
   * this code sets (`sub` 4.1.2, `iss` 4.1.1, `exp` 4.1.4, `iat` 4.1.6) and the
   * role strings.
   */
  datatype Claims = Claims(subject: string, issuer: string, expiresAt: Time, issuedAt: Time, roles: seq<string>)
}
